=== FILE: README.md ===
# GScan OCR back end, modelled in Dafny

GScan is a small FastAPI service that reads uploaded documents (PDF files and
JPEG/PNG images) and returns their text. Three endpoints make up its back end:

- `/transcribe` (`back-end/app.py`). It transcribes a document with Tesseract.
  A PDF is read from its embedded text layer first. When that text is blank,
  the pages are rendered and each page is read with OCR. Every exception is
  caught and becomes an error reply `"Ocorreu um erro no OCR: ..."`.
- `/extract_fields` (`back-end/appfield.py`). It reads the document into lines
  with PaddleOCR. For each field in a comma-separated list, the value comes
  from the first line that mentions the field, case-insensitively. That value
  is the text after the line's first colon, or the whole line when it has no
  colon. A field that no line mentions gets `None`.
- `/extract` (`back-end/appall.py`). It reads the document into one text with
  PaddleOCR. PDF pages go through a thread pool and are joined by newlines.
  Each line of the text then becomes a dictionary entry:
  - a `key: value` line is stored under its lower-cased key;
  - any other non-blank line is stored under `campo_{len(data)+1}`. The count
    covers every entry already stored, colon keys included, so
    `["Nome: Ana", "", "texto solto"]` gives `campo_2`
    (`PairExtraction.UnkeyedExample`).

The model is organised in these modules:

- `Wrappers` holds `Option` and `Outcome`. `Outcome` is a result or the
  message of a raised exception.
- `PyStr` models the Python `str` operations the service relies on: `strip`,
  `lower`, `in`, `split` (whole and `split(':', 1)`), `join`, `str(n)`, and
  `os.path.splitext(...)[1]`. `Find` and `RFind` are helpers: the first colon
  `split(':', 1)` cuts at, and the last dot or separator `splitext` looks for.
- `PyDict` models an insertion-ordered `dict` as its list of entries.
  `d[k] = v` overwrites in place or appends.
- `Oracles` holds the outside libraries as the function fields of `Engines`:
  - `Image.open`;
  - PyMuPDF page text;
  - `convert_from_path`;
  - Tesseract;
  - `thumbnail` + `convert("L")`;
  - PaddleOCR.

  Every property is proved for every choice of these functions. The module also
  holds the extension dispatch shared by the three endpoints, the reply shape,
  and the ordered, first-failure-wins map that models `executor.map`.
- `Transcription`, `FieldExtraction` and `PairExtraction` model the three
  endpoints.
  - Loops in the source are methods. Each is proved equal to a specification
    function.
  - The lemmas prove properties of those functions.

## Model

| member | source | states |
|---|---|---|
| PyStr.Strip | back-end/app.py:21 | `s.strip()` is the slice of `s` left between its leading and trailing whitespace: no whitespace at either end, everything after the slice is whitespace, and the result is empty exactly when `s` is blank |
| PyStr.IsSpace | back-end/app.py:21 | the whitespace set `strip()` removes, Python's `str.isspace`: tab to carriage return, U+001C..U+001F, space, U+0085, U+00A0 and the Unicode space separators; `PyStr.Strip` states what removing it leaves |
| PyStr.StripOfStripped | back-end/app.py:80 | stripping a string that has no whitespace at its ends returns it unchanged, so stripping twice is stripping once |
| PyStr.Lower | back-end/app.py:71 | `s.lower()` has the same length as `s` and lower-cases each character independently |
| PyStr.LowerChar | back-end/app.py:71 | ASCII capitals and the Latin-1 capitals U+00C0..U+00DE except `×` (U+00D7) map 32 code points up, `×` stays, whitespace stays whitespace, and characters outside the cased ranges are unchanged |
| PyStr.ContainsAt | back-end/appfield.py:42 | `t in s` holds exactly when `t` occurs at some index of `s` |
| PyStr.EmptyContained | back-end/appfield.py:42 | the empty string is contained in every string |
| PyStr.Contains | back-end/appfield.py:42 | `t in s` as a recursive search; its meaning, an occurrence at some index, is `PyStr.ContainsAt` |
| PyStr.Find | back-end/appfield.py:45 | helper: the position where `split(':', 1)` cuts, the index of the first `c` in `s`, or None exactly when `c` does not occur |
| PyStr.Before | back-end/appfield.py:45 | the first part of `line.split(':', 1)` contains no colon and is followed by a colon in the line |
| PyStr.After | back-end/appall.py:70 | the first part, a colon and the second part of `line.split(':', 1)` make up the whole line |
| PyStr.SplitFirst | back-end/appall.py:70 | `a + ':' + b` with no colon in `a` splits once into exactly `a` and `b`, later colons staying in `b` |
| PyStr.Split | back-end/appall.py:68 | `s.split(c)` has at least one piece and no piece contains `c` |
| PyStr.SplitCount | back-end/appfield.py:66 | `s.split(c)` has one more piece than `s` has occurrences of `c` |
| PyStr.JoinSplit | back-end/appall.py:68 | joining the pieces of `s.split(c)` with `c` gives back `s` |
| PyStr.SplitJoin | back-end/appall.py:45 | splitting on `c` a join of one or more `c`-free pieces gives the pieces back |
| PyStr.JoinLength | back-end/app.py:63 | `sep.join(xs)` of n >= 1 strings is their total length plus n - 1 separators |
| PyStr.Join | back-end/app.py:63 | `sep.join(xs)`; `PyStr.JoinSplit`, `PyStr.SplitJoin` and `PyStr.JoinLength` state what it builds |
| PyStr.Concat | back-end/app.py:18-20 | `text += page` from `""`, or `extend` from `[]` (appfield.py:30-33); `PyStr.ConcatSnoc` and `PyStr.ConcatLength` state what it builds |
| PyStr.ConcatSnoc | back-end/app.py:20 | `text += page` (and `all_lines.extend(...)` at appfield.py:33) extends the concatenation by that page |
| PyStr.ConcatLength | back-end/app.py:18-20 | the concatenated pages (page texts, or the per-page line lists) are as long as the pages together |
| PyStr.NatToString | back-end/appall.py:73 | `str(n)` is a non-empty string of decimal digits that spells `n` in decimal, with no leading zero unless `n` is 0 |
| PyStr.Ext | back-end/app.py:71 | `os.path.splitext(p)[1]` is empty or a suffix of `p` that starts with its only dot and holds no path separator |
| PyStr.ExtOf | back-end/app.py:71 | the extension of `stem.e` is `.e` when `e` holds no dot or separator and the stem does not end in one |
| PyDict.Get | back-end/appfield.py:46 | helper: the lookup used to state what the stores `data[field] = ...` leave behind, Some exactly when `k` is a key |
| PyDict.Put | back-end/appall.py:71 | `d[k] = v` keeps the key order and appends `k` only when it is new |
| PyDict.PutGet | back-end/appall.py:71 | after `d[k] = v`, `k` maps to `v` and every other key keeps its value |
| PyDict.PutDistinct | back-end/appall.py:73 | `d[k] = v` keeps the keys distinct |
| PyDict.PutEntries | back-end/appall.py:71 | every entry after `d[k] = v` is `(k, v)` or was already there |
| PyDict.PutEachKeys | back-end/appfield.py:38-53 | the loop `d[k] = val(k)` over a list of keys yields exactly those keys, each once |
| PyDict.PutEachValues | back-end/appfield.py:38-53 | after that loop every listed key maps to its own value, whatever the duplicates |
| Oracles.FormatOfSuffix | back-end/app.py:71-85 | the path taken by `stem.e` depends only on `e` lower-cased: `jpg`, `jpeg`, `png` give the image path, `pdf` the PDF path, anything else the refusal |
| Oracles.DottedNames | back-end/app.py:74-77 | comparing dotted extensions against `[".jpg", ".jpeg", ".png"]` and `".pdf"` is comparing the suffixes without the dot, in both directions |
| Oracles.UpperCasePdf | back-end/app.py:71-77 | a name ending in `.PDF` takes the PDF path, because the extension is lower-cased |
| Oracles.MixedCaseJpeg | back-end/app.py:71-74 | a name ending in `.JpG` takes the image path |
| Oracles.TextFileRefused | back-end/app.py:83-85 | a name ending in `.txt` is refused |
| Oracles.BareNameRefused | back-end/app.py:71 | the name `pdf` has no extension and is refused |
| Oracles.FormatOf | back-end/app.py:71-85 | the extension dispatch shared by the three endpoints (also appfield.py:68-76 and appall.py:54-62); `Oracles.FormatOfSuffix` and `Oracles.DottedNames` state which path each extension takes |
| Oracles.LineTexts | back-end/appfield.py:21-24 | the `line[1][0]` of every line of every page, page by page; `Oracles.LineTextsAt` and `Oracles.LineTextsLength` state where each line lands |
| Oracles.MapOutcome | back-end/appall.py:41-43 | the ordered map succeeds exactly when every element succeeds, with the results in input order, and otherwise fails with the message of the first failing element |
| Oracles.MapOutcomeStep | back-end/appall.py:42-43 | after a successful prefix, one more element appends its result or fails with its message |
| Oracles.MapOutcomePrefixFail | back-end/app.py:61-62 | once a prefix of the pages fails, the whole map fails with the same message |
| Oracles.FirstFailureOfPrefix | back-end/appall.py:42 | a first failure among the leading elements is a first failure of the whole sequence |
| Oracles.PageTexts | back-end/appfield.py:23-24 | the texts of one page's lines, one per line, in order |
| Oracles.LineTextsAt | back-end/appfield.py:22-24 | the flattened list has line `j` of page `p` at the position after the lines of earlier pages |
| Oracles.LineTextsLength | back-end/appfield.py:22-24 | the flattened list has one entry per recognised line |
| Oracles.LinesBeforeOfPrefix | back-end/appfield.py:22-24 | the position of a page's lines depends only on the earlier pages |
| Transcription.OcrImage | back-end/app.py:29-54 | the OCR text is Tesseract's text stripped, and an OCR exception passes through |
| Transcription.DigitalText | back-end/app.py:15-21 | the digital text is stripped, and it fails exactly when the PDF reader raises |
| Transcription.ExtractTextPdfDigital | back-end/app.py:15-21 | the `text += page.get_text()` loop computes the page texts concatenated in page order, then stripped |
| Transcription.DigitalTextOfPages | back-end/app.py:15-21 | the digital text is the stretch of the concatenated pages that starts at the first non-blank character, is stripped, and is followed only by whitespace; it is empty exactly when the pages are blank |
| Transcription.OcrPdfScanned | back-end/app.py:56-63 | the per-page loop computes the OCR text of every rendered page in page order, joined by newlines; the first page that raises aborts with that exception |
| Transcription.ScannedTextOfPages | back-end/app.py:56-63 | N pages read as `t1..tN` give exactly `"\n".join([t1..tN])`, N - 1 newlines added |
| Transcription.ScannedText | back-end/app.py:56-63 | what `ocr_pdf_scanned` returns; `Transcription.OcrPdfScanned` and `Transcription.ScannedTextOfPages` state it |
| Transcription.PageOcr | back-end/app.py:62 | `ocr_image(page)` for one rendered page; `Transcription.ScannedTextOfPages` states what the pages give through it |
| Transcription.Finish | back-end/app.py:86-92 | a finished read gives the text reply, and an exception gives the `"Ocorreu um erro no OCR: "` error; `Transcription.Transcribe` and `Transcription.ScannedFallback` use it |
| Transcription.Transcribe | back-end/app.py:65-92 | no exception escapes; a text reply names the uploaded file and comes only from a supported extension; every error is the refusal or starts with `"Ocorreu um erro no OCR: "` |
| Transcription.UnsupportedConsultsNothing | back-end/app.py:83-85 | an unsupported extension gives the refusal whatever the engines would do |
| Transcription.ImagePath | back-end/app.py:74-88 | an image is answered with the stripped OCR of the opened image; an exception from `Image.open` or from Tesseract gives the `"Ocorreu um erro no OCR: "` error with its message, never a text; the PDF engines are never consulted |
| Transcription.DigitalFirst | back-end/app.py:77-80 | a PDF with a non-blank text layer is answered with that text, and neither the renderer nor OCR is consulted |
| Transcription.ScannedFallback | back-end/app.py:79-82 | a blank text layer is empty, and the reply is then the OCR of the rendered pages or its error |
| Transcription.ReaderFailureIsError | back-end/app.py:77-88 | an exception from the PDF reader becomes the error reply with its message |
| Transcription.HelloWorld | back-end/app.py:15-21 | pages `"Hello "` and `"World\n"` are transcribed as `"Hello World"` |
| FieldExtraction.OcrImage | back-end/appfield.py:15-25 | the nested loop collects `line[1][0]` for every line of every page, page by page, or passes on PaddleOCR's exception |
| FieldExtraction.ImageLines | back-end/appfield.py:15-25 | what `ocr_image` returns; `FieldExtraction.OcrImage` computes it by the nested loop |
| FieldExtraction.OcrPdf | back-end/appfield.py:27-34 | the `extend` loop collects the lines of every rendered page in page order; the first page that raises aborts |
| FieldExtraction.PdfLinesOfPages | back-end/appfield.py:27-34 | a PDF whose pages all read gives the per-page lines concatenated, as many as there are lines in all |
| FieldExtraction.PdfLines | back-end/appfield.py:27-34 | what `ocr_pdf` returns; `FieldExtraction.OcrPdf` and `FieldExtraction.PdfLinesOfPages` state it |
| FieldExtraction.PageLines | back-end/appfield.py:32-33 | `ocr_image(preprocess_image(page))` for one rendered page; `FieldExtraction.PdfLinesOfPages` states what the pages give through it |
| FieldExtraction.LineValue | back-end/appfield.py:44-49 | the value from a matched line is the text after its first colon, stripped, or the whole line stripped when it has no colon |
| FieldExtraction.Matches | back-end/appfield.py:42 | `field.lower() in line.lower()`; `FieldExtraction.NoOccurrence` and `FieldExtraction.EmptyFieldTakesFirstLine` state consequences |
| FieldExtraction.FieldValue | back-end/appfield.py:40-53 | the value the scan stores for one field; `FieldExtraction.ChosenLine`, `FieldExtraction.AbsentField` and `FieldExtraction.LaterLinesIgnored` state it |
| FieldExtraction.FieldTable | back-end/appfield.py:36-54 | what `extract_fields` returns; `FieldExtraction.FieldTableComplete`, `FieldExtraction.FieldTableIsPutEach` and `FieldExtraction.FieldOrderIrrelevant` state it |
| FieldExtraction.FirstMatch | back-end/appfield.py:41-51 | the chosen line mentions the field and no earlier line does; None means no line does |
| FieldExtraction.ChosenLine | back-end/appfield.py:41-51 | when line `i` is the first to mention the field, the field's value comes from line `i` |
| FieldExtraction.AbsentField | back-end/appfield.py:52-53 | a field is None exactly when no line mentions it |
| FieldExtraction.LaterLinesIgnored | back-end/appfield.py:50-51 | once a field is found, lines appended later do not change its value |
| FieldExtraction.EmptyFieldTakesFirstLine | back-end/appfield.py:42 | an empty field name (from `"a,,b"`) matches every line and takes the first line's value |
| FieldExtraction.FieldTableIsPutEach | back-end/appfield.py:38-54 | the field table is the loop `data[field] = value(field)` over the requested fields |
| FieldExtraction.ScanField | back-end/appfield.py:40-53 | the inner loop with `found` and `break` gives the value of the first line that mentions the field, or None when no line does |
| FieldExtraction.ExtractFields | back-end/appfield.py:36-54 | the outer loop stores each field's scanned value in turn and computes the field table |
| FieldExtraction.FieldTableComplete | back-end/appfield.py:36-54 | the result has exactly the requested fields as keys, each once, and each maps to its first-match value |
| FieldExtraction.FieldOrderIrrelevant | back-end/appfield.py:39-53 | a field's value does not depend on which other fields are requested or on their order |
| FieldExtraction.TwoFields | back-end/appfield.py:38-54 | two different fields give two entries in request order |
| FieldExtraction.FieldList | back-end/appfield.py:66 | the field list has one stripped entry per comma-separated piece, one more than the number of commas |
| FieldExtraction.ExtractFieldsReply | back-end/appfield.py:56-82 | a reply names the uploaded file; the refusal is given exactly for an unsupported extension; the payload on each path is stated by `FieldExtraction.ExtractFieldsPdf` and `FieldExtraction.ExtractFieldsImage` |
| FieldExtraction.ReplyHasEveryField | back-end/appfield.py:66-82 | a successful reply has exactly the requested fields as keys |
| FieldExtraction.ExtractFieldsPdf | back-end/appfield.py:72-82 | a PDF reply is `extract_fields` of the lines `ocr_pdf` reads, with the parsed field list; a failure of the renderer or of a page escapes the handler |
| FieldExtraction.ExtractFieldsImage | back-end/appfield.py:69-82 | an image reply is `extract_fields` of the PaddleOCR lines of the opened, shrunk and greyed image; an exception from `Image.open` or PaddleOCR escapes the handler |
| FieldExtraction.Complete | back-end/appfield.py:78-82 | `extract_fields` of the lines read and the reply naming the file, or the exception that escapes; `FieldExtraction.ExtractFieldsPdf` and `FieldExtraction.ExtractFieldsImage` state it |
| FieldExtraction.ColonLineValue | back-end/appfield.py:44-46 | for `k:v` with no colon in `k`, the value is `v` stripped |
| FieldExtraction.NamedFieldExample | back-end/appfield.py:36-54 | `["Nome: Ana", "Idade 30"]` with fields `["Nome", "Idade"]` gives `{"Nome": "Ana", "Idade": "Idade 30"}` |
| FieldExtraction.NomeFromColonLine | back-end/appfield.py:44-46 | `"Nome: Ana"` gives `Nome` the value `"Ana"` |
| FieldExtraction.IdadeFromWholeLine | back-end/appfield.py:47-49 | `"Idade 30"` has no colon, so `Idade` gets the whole line |
| FieldExtraction.MissingFieldExample | back-end/appfield.py:52-53 | a field that no line mentions is recorded as None |
| FieldExtraction.NoOccurrence | back-end/appfield.py:42 | a line lacking one of the field's characters does not mention the field |
| PairExtraction.ImageText | back-end/appall.py:22-29 | the image text exists exactly when PaddleOCR succeeds |
| PairExtraction.OcrPdf | back-end/appall.py:31-45 | the thread-pool map and `extend` give each page's text in page order, joined by newlines; the first page that raises raises here |
| PairExtraction.PdfTextOfPages | back-end/appall.py:31-45 | pages read as `t1..tN` give `"\n".join([t1..tN])`, and splitting it on newlines gives the page texts back when none holds a newline |
| PairExtraction.PdfText | back-end/appall.py:31-45 | what `ocr_pdf` returns; `PairExtraction.OcrPdf` and `PairExtraction.PdfTextOfPages` state it |
| PairExtraction.ProcessPage | back-end/appall.py:37-39 | `process_page`: `ocr_image(preprocess_image(page))`; `PairExtraction.PdfTextOfPages` states what the pages give through it |
| PairExtraction.ColonValue | back-end/appall.py:70-71 | the value of a colon line is stripped |
| PairExtraction.ColonKey | back-end/appall.py:70-71 | `chave.strip().lower()` for the text before the first colon; `PairExtraction.ColonLineParts` states it |
| PairExtraction.ColonLineParts | back-end/appall.py:70-71 | `k:v` with no colon in `k` has the key `k` stripped and lower-cased and the value `v` stripped, further colons included |
| PairExtraction.CampoKey | back-end/appall.py:73 | the positional key is `campo_` followed by at least one character |
| PairExtraction.ParsePairs | back-end/appall.py:66-73 | the loop over `text.split("\n")` computes the parser's fold over the lines |
| PairExtraction.Step | back-end/appall.py:69-73 | one pass of the parser loop; `PairExtraction.ColonStep`, `PairExtraction.BlankStep` and `PairExtraction.UnkeyedStep` state its three cases |
| PairExtraction.Run | back-end/appall.py:68-73 | the parser loop from a given dict; `PairExtraction.RunAppend`, `PairExtraction.RunShape` and `PairExtraction.RunKeeps` state it |
| PairExtraction.Pairs | back-end/appall.py:66-73 | the parser loop from `{}`; `PairExtraction.PairsShape` and `PairExtraction.LastColonWins` state it |
| PairExtraction.RunAppend | back-end/appall.py:68 | parsing `a + b` is parsing `a`, then parsing `b` from the dict reached |
| PairExtraction.ColonStep | back-end/appall.py:69-71 | a colon line stores its value under its key, leaves every other key alone, and overwrites a repeated key without adding an entry |
| PairExtraction.BlankStep | back-end/appall.py:72 | a blank line without a colon changes nothing |
| PairExtraction.UnkeyedStep | back-end/appall.py:72-73 | a non-blank line without a colon stores its stripped text under `campo_{len(data)+1}`, counting colon entries too, and leaves every other key alone |
| PairExtraction.PairsShape | back-end/appall.py:66-73 | the dict has at most one entry per line, distinct keys and stripped values |
| PairExtraction.RunShape | back-end/appall.py:68-73 | each further line adds at most one entry and keeps the keys distinct and the values stripped |
| PairExtraction.LastColonWins | back-end/appall.py:69-71 | a colon line's key ends with that line's value when no later colon line repeats the key and the key is not a positional key `campo_<n>` (so `campo_x` or `campo_02` keep their value) |
| PairExtraction.RunKeeps | back-end/appall.py:68-73 | a key that no remaining colon line writes, and that no positional key can equal, keeps its value |
| PairExtraction.UnkeyedExample | back-end/appall.py:66-73 | `["Nome: Ana", "", "texto solto"]` gives `{"nome": "Ana", "campo_2": "texto solto"}` |
| PairExtraction.CampoKeyCollision | back-end/appall.py:71-73 | `["campo_2: v", "a"]` gives `{"campo_2": "a"}`: a positional key can overwrite a colon key |
| PairExtraction.Extract | back-end/appall.py:47-75 | a reply names the uploaded file; the refusal is given exactly for an unsupported extension and is the fixed message; the payload on each path is stated by `PairExtraction.ExtractPdf` and `PairExtraction.ExtractImage` |
| PairExtraction.ExtractUnsupported | back-end/appall.py:60-62 | an unsupported extension is refused whatever the engines would do |
| PairExtraction.ExtractShape | back-end/appall.py:66-75 | a successful reply has distinct keys and stripped values |
| PairExtraction.ExtractPdf | back-end/appall.py:58-75 | a PDF reply is the parse of `ocr_pdf`'s text split on newlines; a failure of the renderer or of a page escapes the handler |
| PairExtraction.ExtractImage | back-end/appall.py:55-75 | an image reply is the parse of the space-joined PaddleOCR lines of the opened, shrunk and greyed image; an exception from `Image.open` or PaddleOCR escapes the handler |
| PairExtraction.Parsed | back-end/appall.py:64-75 | the parse of the text read and the reply naming the file, or the exception that escapes; `PairExtraction.ExtractPdf` and `PairExtraction.ExtractImage` state it |

## Left out

- Pixel work is not modelled. This covers OpenCV's grayscale conversion, median
  blur and adaptive threshold, and PIL's `thumbnail` and `convert("L")`. Each
  is folded into an engine function (`tesseract` with the `Document` profile,
  `shrinkGray`). The source's parameters for these operations therefore do not
  appear in the model: the 1200×1200 bound, the blur size 3, the threshold
  block 31 with C 2, and the Tesseract configuration.
- `shrinkGray` never fails. The model assumes PIL's `thumbnail`/`convert`
  does not raise on an image it has already opened.
- What the OCR engines recognise is opaque. Tesseract, PaddleOCR and PyMuPDF
  are arbitrary functions. Only how the service combines their results is
  modelled.
- Temporary files are not modelled. This covers `temp_<filename>`,
  `temp.png`, `temp_page.png`, `open`/`write`/`os.remove`, and the failures
  of those calls.
- FastAPI, `async`, form parsing and JSON encoding are not modelled. A reply is
  the `Reply` datatype. An exception that escapes a handler (appfield.py,
  appall.py) is `Uncaught`, FastAPI's 500 response.
- `ThreadPoolExecutor.map` with four workers is modelled as a sequential map
  in page order. Concurrency is not modelled, and neither is the interleaving
  of the OCR engine's shared temporary file (`temp_page.png`) between threads.
  Results are taken in input order and the first exception wins. Both match
  `executor.map`.
- Every PDF is rendered at 200 dpi: app.py:59 and appfield.py:29 pass 200,
  and appall.py:34 relies on `convert_from_path`'s default of 200. One
  `rasterize` function therefore stands for all three calls. The Poppler
  path is installation plumbing and is not modelled.
- `str.lower` is exact for ASCII and Latin-1 letters. Other characters are
  left unchanged, so the model differs from Python for other cased scripts.
- `os.path.splitext` is the Windows flavour (`ntpath`). Both `\` and `/`
  separate directories, which matches the Windows paths hard-coded in the
  service. Under POSIX, a backslash in a filename would differ.
- Only the recognised text of a PaddleOCR detection (`line[1][0]`) is used.
  Boxes and scores are carried but never read.
- `Transcription.OcrImage` with the `Plain` profile models
  `ocr_image_without_pre_processing`, which no endpoint calls.
- PairExtraction.ImageText: states only when the text exists. Its content
  (`" ".join` of the flattened line texts) is its definition. The position of
  each line in the flattened list is proved by `Oracles.LineTextsAt`.

=== FILE: field_extraction.dfy ===
/** The named-field endpoint (`/extract_fields`): read the document into
    lines with PaddleOCR, then for each requested field take the value from
    the first line that mentions it. */
module FieldExtraction {
  import opened Wrappers
  import opened PyStr
  import opened PyDict
  import opened Oracles

  // ---------------------------------------------------------------------
  // Reading lines
  // ---------------------------------------------------------------------

  /** What `ocr_image` returns: the recognised lines, page by page. */
  function ImageLines(e: Engines, img: Image): Outcome<seq<string>> {
    match e.paddle(img)
    case Fail(m) => Fail(m)
    case Ok(result) => Ok(LineTexts(result))
  }

  /** `ocr_image`: append `line[1][0]` for every line of every page of the
      PaddleOCR result. */
  method OcrImage(e: Engines, img: Image) returns (r: Outcome<seq<string>>)
    ensures r == ImageLines(e, img)
  {
    var result := e.paddle(img);
    if result.Fail? {
      return Fail(result.message);
    }
    var pages := result.value;
    var lines: seq<string> := [];
    var p := 0;
    while p < |pages|
      invariant 0 <= p <= |pages|
      invariant lines == LineTexts(pages[..p])
    {
      var page := pages[p];
      var q := 0;
      while q < |page|
        invariant 0 <= q <= |page|
        invariant lines == LineTexts(pages[..p]) + PageTexts(page[..q])
      {
        assert PageTexts(page[..q + 1]) == PageTexts(page[..q]) + [page[q].text];
        lines := lines + [page[q].text];
        q := q + 1;
      }
      assert page[..q] == page;
      assert pages[..p + 1][..p] == pages[..p];
      p := p + 1;
    }
    assert pages[..p] == pages;
    r := Ok(lines);
  }

  /** The lines read from one rendered page: shrink and grayscale it, then OCR. */
  function PageLines(e: Engines): Image -> Outcome<seq<string>> {
    (p: Image) => ImageLines(e, e.shrinkGray(p))
  }

  /** What `ocr_pdf` returns: the lines of every page, page after page. */
  function PdfLines(e: Engines, content: Bytes): Outcome<seq<string>> {
    match e.rasterize(content)
    case Fail(m) => Fail(m)
    case Ok(pages) =>
      match MapOutcome(PageLines(e), pages)
      case Fail(m) => Fail(m)
      case Ok(perPage) => Ok(Concat(perPage))
  }

  /** `ocr_pdf`: `all_lines.extend(ocr_image(preprocess_image(page)))` for
      each rendered page, in page order. */
  method OcrPdf(e: Engines, content: Bytes) returns (r: Outcome<seq<string>>)
    ensures r == PdfLines(e, content)
  {
    var raster := e.rasterize(content);
    if raster.Fail? {
      return Fail(raster.message);
    }
    var pages := raster.value;
    var allLines: seq<string> := [];
    ghost var perPage: seq<seq<string>> := [];
    var i := 0;
    while i < |pages|
      invariant 0 <= i <= |pages|
      invariant MapOutcome(PageLines(e), pages[..i]) == Ok(perPage)
      invariant allLines == Concat(perPage)
    {
      var pre := e.shrinkGray(pages[i]);
      var lines := OcrImage(e, pre);
      MapOutcomeStep(PageLines(e), pages, i);
      if lines.Fail? {
        MapOutcomePrefixFail(PageLines(e), pages, i + 1);
        return Fail(lines.message);
      }
      ConcatSnoc(perPage, lines.value);
      allLines := allLines + lines.value;
      perPage := perPage + [lines.value];
      i := i + 1;
    }
    assert pages[..i] == pages;
    r := Ok(allLines);
  }

  /** A PDF whose pages are all read gives each page's lines in page order,
      as many lines as the pages hold together. */
  lemma PdfLinesOfPages(e: Engines, content: Bytes, pages: seq<Image>, perPage: seq<seq<string>>)
    requires e.rasterize(content) == Ok(pages)
    requires |perPage| == |pages|
    requires forall i :: 0 <= i < |pages| ==> ImageLines(e, e.shrinkGray(pages[i])) == Ok(perPage[i])
    ensures PdfLines(e, content) == Ok(Concat(perPage))
    ensures |Concat(perPage)| == SumLen(perPage)
  {
    var m := MapOutcome(PageLines(e), pages);
    assert forall i :: 0 <= i < |pages| ==> PageLines(e)(pages[i]) == Ok(perPage[i]);
    assert m.Ok?;
    assert m.value == perPage;
    ConcatLength(perPage);
  }

  // ---------------------------------------------------------------------
  // Field matching
  // ---------------------------------------------------------------------

  /** `field.lower() in line.lower()`. */
  predicate Matches(line: string, field: string) {
    Contains(Lower(line), Lower(field))
  }

  /** The value a matched line gives: the text after its first colon,
      stripped, or the whole line stripped when it has no colon. */
  function LineValue(line: string): (v: string)
    ensures IsStripped(v)
    ensures ':' in line ==> v == Strip(After(line, ':'))
    ensures ':' !in line ==> v == Strip(line)
  {
    if ':' in line then Strip(After(line, ':')) else Strip(line)
  }

  /** Index of the first line that mentions `field`, if any. */
  function FirstMatch(lines: seq<string>, field: string): (r: Option<nat>)
    ensures r.Some? ==> r.value < |lines| && Matches(lines[r.value], field)
    ensures r.Some? ==> forall j :: 0 <= j < r.value ==> !Matches(lines[j], field)
    ensures r.None? ==> forall j :: 0 <= j < |lines| ==> !Matches(lines[j], field)
    decreases |lines|
  {
    if lines == [] then None
    else if Matches(lines[0], field) then Some(0)
    else match FirstMatch(lines[1..], field)
      case None => None
      case Some(i) => Some(i + 1)
  }

  /** The value recorded for `field`: from its first matching line, or None. */
  function FieldValue(lines: seq<string>, field: string): Option<string> {
    match FirstMatch(lines, field)
    case None => None
    case Some(i) => Some(LineValue(lines[i]))
  }

  /** The line chosen for a field is the first one, in order, that mentions it. */
  lemma ChosenLine(lines: seq<string>, field: string, i: nat)
    requires i < |lines| && Matches(lines[i], field)
    requires forall j :: 0 <= j < i ==> !Matches(lines[j], field)
    ensures FieldValue(lines, field) == Some(LineValue(lines[i]))
  {
  }

  /** A field that no line mentions is recorded as None, and only then. */
  lemma AbsentField(lines: seq<string>, field: string)
    ensures FieldValue(lines, field).None? <==> forall j :: 0 <= j < |lines| ==> !Matches(lines[j], field)
  {
  }

  /** Lines after the first match are never looked at. */
  lemma {:induction false} LaterLinesIgnored(lines: seq<string>, more: seq<string>, field: string)
    requires FieldValue(lines, field).Some?
    ensures FieldValue(lines + more, field) == FieldValue(lines, field)
  {
    var i := FirstMatch(lines, field).value;
    assert (lines + more)[i] == lines[i];
    forall j | 0 <= j < i ensures !Matches((lines + more)[j], field) {
      assert (lines + more)[j] == lines[j];
    }
    ChosenLine(lines + more, field, i);
  }

  /** An empty field name is contained in every line, so it takes its value
      from the first line whenever there is one. */
  lemma EmptyFieldTakesFirstLine(lines: seq<string>)
    requires lines != []
    ensures FieldValue(lines, "") == Some(LineValue(lines[0]))
  {
    assert Lower("") == "";
    assert Matches(lines[0], "");
  }

  // ---------------------------------------------------------------------
  // extract_fields
  // ---------------------------------------------------------------------

  /** What `extract_fields` returns: `data[field] = value` for each requested
      field in turn. */
  function FieldTable(lines: seq<string>, fields: seq<string>): Dict<string, Option<string>>
    decreases |fields|
  {
    if fields == [] then []
    else
      var field := fields[|fields| - 1];
      Put(FieldTable(lines, fields[..|fields| - 1]), field, FieldValue(lines, field))
  }

  /** The table is the generic loop `data[f] = value(f)` over the fields. */
  lemma {:induction false} FieldTableIsPutEach(lines: seq<string>, fields: seq<string>)
    ensures FieldTable(lines, fields) == PutEach(fields, f => FieldValue(lines, f))
    decreases |fields|
  {
    if fields != [] {
      FieldTableIsPutEach(lines, fields[..|fields| - 1]);
    }
  }

  /** The inner loop of `extract_fields`: scan the lines in order; at the
      first line that mentions the field take its value and stop scanning;
      give None when the scan ends without a match. */
  method ScanField(lines: seq<string>, field: string) returns (v: Option<string>)
    ensures v == FieldValue(lines, field)
  {
    var found := false;
    v := None;
    var j := 0;
    while j < |lines|
      invariant 0 <= j <= |lines|
      invariant forall k :: 0 <= k < j ==> !Matches(lines[k], field)
      invariant !found && v == None
    {
      var line := lines[j];
      if Contains(Lower(line), Lower(field)) {
        if ':' in line {
          var valor := After(line, ':');
          v := Some(Strip(valor));
        } else {
          v := Some(Strip(line));
        }
        ChosenLine(lines, field, j);
        found := true;
        break;
      }
      j := j + 1;
    }
    if !found {
      AbsentField(lines, field);
    }
  }

  /** `extract_fields`: `data[field] = value` for each requested field in
      turn, the value found by scanning the lines. */
  method ExtractFields(lines: seq<string>, fields: seq<string>) returns (data: Dict<string, Option<string>>)
    ensures data == FieldTable(lines, fields)
  {
    data := [];
    var i := 0;
    while i < |fields|
      invariant 0 <= i <= |fields|
      invariant data == FieldTable(lines, fields[..i])
    {
      var field := fields[i];
      assert fields[..i + 1][..i] == fields[..i];
      var value := ScanField(lines, field);
      data := Put(data, field, value);
      i := i + 1;
    }
    assert fields[..i] == fields;
  }

  /** Every requested field is a key of the result, no other key appears,
      no key appears twice, and each field's value is the one its first
      matching line gives. */
  lemma FieldTableComplete(lines: seq<string>, fields: seq<string>)
    ensures DistinctKeys(FieldTable(lines, fields))
    ensures forall f :: f in Keys(FieldTable(lines, fields)) <==> f in fields
    ensures forall f :: f in fields ==> Get(FieldTable(lines, fields), f) == Some(FieldValue(lines, f))
  {
    var value := f => FieldValue(lines, f);
    FieldTableIsPutEach(lines, fields);
    PutEachKeys(fields, value);
    PutEachValues(fields, value);
    forall f | f in fields ensures Get(FieldTable(lines, fields), f) == Some(FieldValue(lines, f)) {
      var i :| 0 <= i < |fields| && fields[i] == f;
      assert value(f) == FieldValue(lines, f);
    }
  }

  /** A field's value depends on that field and the lines alone: the order
      of the requested fields and repetitions among them change nothing. */
  lemma FieldOrderIrrelevant(lines: seq<string>, fields: seq<string>, fields': seq<string>, f: string)
    requires f in fields && f in fields'
    ensures Get(FieldTable(lines, fields), f) == Get(FieldTable(lines, fields'), f)
  {
    FieldTableComplete(lines, fields);
    FieldTableComplete(lines, fields');
  }

  /** The list of requested fields: `[f.strip() for f in fields.split(',')]`.
      It has one entry per comma plus one, each stripped, in input order. */
  function FieldList(form: string): (r: seq<string>)
    ensures |r| == Count(form, ',') + 1 == |Split(form, ',')|
    ensures forall i :: 0 <= i < |r| ==> IsStripped(r[i]) && r[i] == Strip(Split(form, ',')[i])
  {
    SplitCount(form, ',');
    var parts := Split(form, ',');
    seq(|parts|, i requires 0 <= i < |parts| => Strip(parts[i]))
  }

  // ---------------------------------------------------------------------
  // The endpoint
  // ---------------------------------------------------------------------

  /** The reply once the lines are read, or the exception that escapes. */
  function Complete(filename: string, read: Outcome<seq<string>>, fields: seq<string>)
    : Reply<Dict<string, Option<string>>>
  {
    match read
    case Fail(m) => Uncaught(m)
    case Ok(lines) => Reply(filename, FieldTable(lines, fields))
  }

  /** `extract_fields_endpoint`: parse the field list, dispatch on the
      extension, read the lines and extract the fields. Nothing here catches
      exceptions, so an engine failure escapes the handler. */
  function ExtractFieldsReply(e: Engines, filename: string, form: string, content: Bytes)
    : (r: Reply<Dict<string, Option<string>>>)
    ensures r.Reply? ==> r.documento == filename
    ensures r.ErrorReply? <==> FormatOf(filename) == Unsupported
    ensures r.ErrorReply? ==> r.error == UnsupportedMessage
  {
    var fieldsList := FieldList(form);
    match FormatOf(filename)
    case Raster =>
      (match e.openImage(content)
       case Fail(m) => Uncaught(m)
       case Ok(img) => Complete(filename, ImageLines(e, e.shrinkGray(img)), fieldsList))
    case Pdf => Complete(filename, PdfLines(e, content), fieldsList)
    case Unsupported => ErrorReply(UnsupportedMessage)
  }

  /** A PDF reply is the field table of the per-page lines, rendered and
      read in page order; a failure of the renderer or of any page escapes
      the handler. */
  lemma ExtractFieldsPdf(e: Engines, filename: string, form: string, content: Bytes)
    requires FormatOf(filename) == Pdf
    ensures PdfLines(e, content).Ok? ==>
            ExtractFieldsReply(e, filename, form, content) ==
            Reply(filename, FieldTable(PdfLines(e, content).value, FieldList(form)))
    ensures PdfLines(e, content).Fail? ==>
            ExtractFieldsReply(e, filename, form, content) == Uncaught(PdfLines(e, content).message)
  {
  }

  /** An image reply is the field table of the PaddleOCR lines of the
      opened, shrunk and greyed image; an exception from opening the image
      or from PaddleOCR escapes the handler. */
  lemma ExtractFieldsImage(e: Engines, filename: string, form: string, content: Bytes)
    requires FormatOf(filename) == Raster
    ensures e.openImage(content).Fail? ==>
            ExtractFieldsReply(e, filename, form, content) == Uncaught(e.openImage(content).message)
    ensures e.openImage(content).Ok? && e.paddle(e.shrinkGray(e.openImage(content).value)).Fail? ==>
            ExtractFieldsReply(e, filename, form, content) ==
            Uncaught(e.paddle(e.shrinkGray(e.openImage(content).value)).message)
    ensures e.openImage(content).Ok? && e.paddle(e.shrinkGray(e.openImage(content).value)).Ok? ==>
            ExtractFieldsReply(e, filename, form, content) ==
            Reply(filename, FieldTable(LineTexts(e.paddle(e.shrinkGray(e.openImage(content).value)).value), FieldList(form)))
  {
  }

  /** A successful reply holds exactly the requested fields. */
  lemma ReplyHasEveryField(e: Engines, filename: string, form: string, content: Bytes)
    requires ExtractFieldsReply(e, filename, form, content).Reply?
    ensures var d := ExtractFieldsReply(e, filename, form, content).payload;
      forall f :: f in Keys(d) <==> f in FieldList(form)
  {
    var fieldsList := FieldList(form);
    var read :=
      if FormatOf(filename) == Pdf then PdfLines(e, content)
      else ImageLines(e, e.shrinkGray(e.openImage(content).value));
    FieldTableComplete(read.value, fieldsList);
  }

  /** `"Nome: Ana"` gives `"Nome"` the value `"Ana"`: the text after the colon. */
  lemma NomeFromColonLine(a: string, b: string)
    requires a == "Nome: Ana"
    ensures FieldValue([a, b], "Nome") == Some("Ana")
  {
    NomeLine(a);
    ChosenLine([a, b], "Nome", 0);
  }

  /** `"Nome: Ana"` mentions `"Nome"`, and its value is what follows the
      colon, stripped. */
  lemma NomeLine(line: string)
    requires line == "Nome: Ana"
    ensures Matches(line, "Nome") && LineValue(line) == "Ana"
  {
    assert Lower("Nome") <= Lower(line);
    NomeAnaParts(line);
    ColonLineValue("Nome", " Ana");
    StripAna(" Ana");
  }

  /** A line with a colon gives the text after its first colon, stripped,
      further colons included. */
  lemma ColonLineValue(k: string, v: string)
    requires ':' !in k
    ensures LineValue(k + ":" + v) == Strip(v)
  {
    SplitFirst(k, ':', v);
  }

  /** `"Nome: Ana"` does not mention `"Idade"`. */
  lemma IdadeNotInNome(line: string)
    requires line == "Nome: Ana"
    ensures !Matches(line, "Idade")
  {
    assert Lower("Idade")[0] == 'i';
    assert 'i' !in Lower(line);
    NoOccurrence(Lower(line), Lower("Idade"), 0);
  }

  /** `"Idade 30"` mentions `"Idade"` and, having no colon, is its own value. */
  lemma IdadeLine(line: string)
    requires line == "Idade 30"
    ensures Matches(line, "Idade") && LineValue(line) == "Idade 30"
  {
    assert Lower("Idade") <= Lower(line);
    assert ':' !in line;
    StripOfStripped(line);
  }

  /** `"Idade 30"` has no colon, so `"Idade"` gets the whole line. */
  lemma IdadeFromWholeLine(a: string, b: string)
    requires a == "Nome: Ana" && b == "Idade 30"
    ensures FieldValue([a, b], "Idade") == Some("Idade 30")
  {
    IdadeNotInNome(a);
    IdadeLine(b);
    ChosenLine([a, b], "Idade", 1);
  }

  /** `extract_fields(["Nome: Ana", "Idade 30"], ["Nome", "Idade"])` is
      `{"Nome": "Ana", "Idade": "Idade 30"}`. */
  lemma NamedFieldExample()
    ensures FieldTable(["Nome: Ana", "Idade 30"], ["Nome", "Idade"]) ==
            [("Nome", Some("Ana")), ("Idade", Some("Idade 30"))]
  {
    var a, b := "Nome: Ana", "Idade 30";
    NomeFromColonLine(a, b);
    IdadeFromWholeLine(a, b);
    assert "Nome"[0] != "Idade"[0];
    TwoFields([a, b], "Nome", "Idade");
  }

  /** Two different fields give a table of two entries in request order. */
  lemma TwoFields(lines: seq<string>, f: string, g: string)
    requires f != g
    ensures FieldTable(lines, [f, g]) == [(f, FieldValue(lines, f)), (g, FieldValue(lines, g))]
  {
    var vf, vg := FieldValue(lines, f), FieldValue(lines, g);
    assert [f, g][..1] == [f];
    assert [f][..0] == [];
    assert FieldTable(lines, []) == [];
    assert Put([], f, vf) == [(f, vf)];
    var d := FieldTable(lines, [f]);
    assert d == [(f, vf)];
    assert FieldTable(lines, [f, g]) == Put(d, g, vg);
    assert d[1..] == [];
    assert Put(d[1..], g, vg) == [(g, vg)];
  }

  /** `extract_fields(["Nome: Ana"], ["Endereco"])` is `{"Endereco": None}`. */
  lemma MissingFieldExample()
    ensures FieldTable(["Nome: Ana"], ["Endereco"]) == [("Endereco", None)]
  {
    var a := "Nome: Ana";
    assert !Matches(a, "Endereco") by {
      assert Lower("Endereco")[2] == 'd';
      assert 'd' !in Lower(a);
      NoOccurrence(Lower(a), Lower("Endereco"), 2);
    }
    assert FieldValue([a], "Endereco") == None;
    assert ["Endereco"][..0] == [];
  }

  /** A string with no occurrence of the first character of `t` does not contain `t`. */
  lemma NoOccurrence(s: string, t: string, k: nat)
    requires k < |t| && t[k] !in s
    ensures !Contains(s, t)
  {
    ContainsAt(s, t);
  }
}

=== FILE: oracles.dfy ===
/** What the three endpoints share: the outside engines they call (as
    function values, so that every property holds for any engine), the
    dispatch on the file extension, the reply dictionaries, and the in-order
    collection of per-page results. */
module Oracles {
  import opened Wrappers
  import opened PyStr

  newtype byte = x: int | 0 <= x < 256

  /** The raw content of an uploaded file. */
  type Bytes = seq<byte>

  /** A raster page: size and pixel buffer. */
  datatype Image = Image(width: nat, height: nat, pixels: seq<int>)

  /** One PaddleOCR line: `[box, (text, score)]`, so `line[1][0]` is `text`. */
  datatype Detection = Detection(box: seq<(int, int)>, text: string, score: real)

  /** The two Tesseract set-ups of the transcription endpoint: grayscale
      only with the default configuration, or median blur and adaptive
      threshold with `--oem 3 --psm 6`. Both recognise Portuguese (`por`). */
  datatype OcrProfile = Plain | Document

  /** The libraries the service calls. Each may raise, so each returns an
      Outcome; what they compute is not modelled. */
  datatype Engines = Engines(
    /** `Image.open` on the saved upload. */
    openImage: Bytes -> Outcome<Image>,
    /** `fitz.open` followed by `page.get_text()` on each page, in page order. */
    pdfPageTexts: Bytes -> Outcome<seq<string>>,
    /** `convert_from_path`: the pages rendered as images, in page order. */
    rasterize: Bytes -> Outcome<seq<Image>>,
    /** `pytesseract.image_to_string` after the profile's preprocessing. */
    tesseract: (Image, OcrProfile) -> Outcome<string>,
    /** `thumbnail((1200, 1200))` then `convert("L")`. */
    shrinkGray: Image -> Image,
    /** `PaddleOCR(lang="pt").predict`: pages of detected lines. */
    paddle: Image -> Outcome<seq<seq<Detection>>>
  )

  // ---------------------------------------------------------------------
  // Format dispatch
  // ---------------------------------------------------------------------

  /** Which path an upload takes. */
  datatype Format = Raster | Pdf | Unsupported

  /** `ext = os.path.splitext(filename)[1].lower()`, then `.jpg`, `.jpeg`
      and `.png` are images, `.pdf` is a PDF and anything else is refused. */
  function FormatOf(filename: string): Format {
    var ext := Lower(Ext(filename));
    if ext in [".jpg", ".jpeg", ".png"] then Raster
    else if ext == ".pdf" then Pdf
    else Unsupported
  }

  /** Putting the same character in front of two strings keeps them equal
      or different. */
  lemma DotPrefix(a: string, b: string)
    ensures "." + a == "." + b <==> a == b
  {
    if "." + a == "." + b {
      assert a == ("." + a)[1..];
      assert b == ("." + b)[1..];
    }
  }

  /** Lower-casing leaves the leading dot of an extension alone. */
  lemma LowerDot(e: string)
    ensures Lower("." + e) == "." + Lower(e)
  {
    var l, r := Lower("." + e), "." + Lower(e);
    forall k | 0 <= k < |l| ensures l[k] == r[k] {
      if k > 0 {
        assert ("." + e)[k] == e[k - 1];
      }
    }
  }

  /** A dotted suffix names a known format exactly when the suffix without
      its dot is one of the known names. */
  lemma DottedNames(le: string)
    ensures "." + le in [".jpg", ".jpeg", ".png"] <==> le in ["jpg", "jpeg", "png"]
    ensures "." + le == ".pdf" <==> le == "pdf"
  {
    DotPrefix(le, "jpg");
    assert ".jpg" == "." + "jpg";
    DotPrefix(le, "jpeg");
    assert ".jpeg" == "." + "jpeg";
    DotPrefix(le, "png");
    assert ".png" == "." + "png";
    DotPrefix(le, "pdf");
    assert ".pdf" == "." + "pdf";
  }

  /** The format of `stem.e` depends only on the typed suffix `e`, compared
      without regard to case. */
  lemma FormatOfSuffix(stem: string, e: string)
    requires stem != [] && stem[|stem| - 1] != '.' && !IsSep(stem[|stem| - 1])
    requires '.' !in e && forall k :: 0 <= k < |e| ==> !IsSep(e[k])
    ensures FormatOf(stem + "." + e) ==
      if Lower(e) in ["jpg", "jpeg", "png"] then Raster
      else if Lower(e) == "pdf" then Pdf
      else Unsupported
  {
    ExtOf(stem, e);
    LowerDot(e);
    DottedNames(Lower(e));
  }

  /** A name ending in `.PDF` takes the PDF path. */
  lemma UpperCasePdf(stem: string)
    requires stem != [] && stem[|stem| - 1] != '.' && !IsSep(stem[|stem| - 1])
    ensures FormatOf(stem + ".PDF") == Pdf
  {
    KnownSuffix(stem, "PDF", ".PDF");
    PdfLower("PDF");
  }

  /** A name ending in `.JpG` takes the image path. */
  lemma MixedCaseJpeg(stem: string)
    requires stem != [] && stem[|stem| - 1] != '.' && !IsSep(stem[|stem| - 1])
    ensures FormatOf(stem + ".JpG") == Raster
  {
    KnownSuffix(stem, "JpG", ".JpG");
    JpgLower("JpG");
  }

  /** A name ending in `.txt` is refused. */
  lemma TextFileRefused(stem: string)
    requires stem != [] && stem[|stem| - 1] != '.' && !IsSep(stem[|stem| - 1])
    ensures FormatOf(stem + ".txt") == Unsupported
  {
    KnownSuffix(stem, "txt", ".txt");
    TxtLower("txt");
  }

  /** The format of `stem + dotted`, where `dotted` is a dot and the suffix `e`. */
  lemma KnownSuffix(stem: string, e: string, dotted: string)
    requires stem != [] && stem[|stem| - 1] != '.' && !IsSep(stem[|stem| - 1])
    requires '.' !in e && forall k :: 0 <= k < |e| ==> !IsSep(e[k])
    requires dotted == "." + e
    ensures FormatOf(stem + dotted) ==
      if Lower(e) in ["jpg", "jpeg", "png"] then Raster
      else if Lower(e) == "pdf" then Pdf
      else Unsupported
  {
    assert stem + dotted == stem + "." + e;
    FormatOfSuffix(stem, e);
  }

  /** `"PDF".lower()` is `"pdf"`. */
  lemma PdfLower(e: string)
    requires e == "PDF"
    ensures Lower(e) == "pdf"
  {
  }

  /** `"JpG".lower()` is `"jpg"`, one of the image suffixes. */
  lemma JpgLower(e: string)
    requires e == "JpG"
    ensures Lower(e) in ["jpg", "jpeg", "png"]
  {
    var le := Lower(e);
    assert le[0] == 'j' && le[1] == 'p' && le[2] == 'g';
    assert le == "jpg";
  }

  /** `"txt".lower()` is neither an image nor a PDF suffix. */
  lemma TxtLower(e: string)
    requires e == "txt"
    ensures Lower(e) !in ["jpg", "jpeg", "png"] && Lower(e) != "pdf"
  {
    var le := Lower(e);
    assert le[0] == 't';
  }

  /** A name without a dot has no extension and is refused, even `pdf`. */
  lemma BareNameRefused()
    ensures FormatOf("pdf") == Unsupported
  {
    assert RFind("pdf", '.') == -1;
    assert Ext("pdf") == "";
  }

  // ---------------------------------------------------------------------
  // Replies
  // ---------------------------------------------------------------------

  /** The dictionary an endpoint returns: `{"documento": ..., <payload>}`,
      `{"error": ...}`, or an exception that escapes the handler (which the
      web framework turns into a server error). */
  datatype Reply<T> =
    | Reply(documento: string, payload: T)
    | ErrorReply(error: string)
    | Uncaught(exception: string)

  /** The refusal for an extension outside the four known ones. */
  const UnsupportedMessage: string := "Formato n\U{e3}o suportado. Use PDF ou imagem."

  // ---------------------------------------------------------------------
  // Per-page results, in page order
  // ---------------------------------------------------------------------

  /** `f` fails on `xs[i]` with message `m` and succeeds on every earlier element. */
  ghost predicate FirstFailureAt<A, B>(f: A -> Outcome<B>, xs: seq<A>, i: int, m: string) {
    0 <= i < |xs| && f(xs[i]) == Fail(m) && forall j :: 0 <= j < i ==> f(xs[j]).Ok?
  }

  /** Apply `f` to every element in order, collecting the results; the first
      failure in order is the outcome. This is a sequential loop, and also what
      iterating over `executor.map(f, xs)` yields whatever order the workers
      finish in. */
  function MapOutcome<A, B>(f: A -> Outcome<B>, xs: seq<A>): (r: Outcome<seq<B>>)
    ensures r.Ok? <==> forall i :: 0 <= i < |xs| ==> f(xs[i]).Ok?
    ensures r.Ok? ==> |r.value| == |xs| && forall i :: 0 <= i < |xs| ==> f(xs[i]) == Ok(r.value[i])
    ensures r.Fail? ==> exists i :: FirstFailureAt(f, xs, i, r.message)
    decreases |xs|
  {
    if xs == [] then Ok([])
    else
      var init, last := xs[..|xs| - 1], xs[|xs| - 1];
      assert forall i :: 0 <= i < |init| ==> init[i] == xs[i];
      match MapOutcome(f, init)
      case Fail(m) =>
        FirstFailureOfPrefix(f, xs, init, m);
        Fail(m)
      case Ok(vs) =>
        match f(last)
        case Fail(m) =>
          assert FirstFailureAt(f, xs, |xs| - 1, m);
          Fail(m)
        case Ok(v) => Ok(vs + [v])
  }

  /** A first failure among all but the last element is a first failure of
      the whole sequence. */
  lemma FirstFailureOfPrefix<A, B>(f: A -> Outcome<B>, xs: seq<A>, init: seq<A>, m: string)
    requires xs != [] && init == xs[..|xs| - 1]
    requires exists i :: FirstFailureAt(f, init, i, m)
    ensures exists i :: FirstFailureAt(f, xs, i, m)
  {
    var i :| FirstFailureAt(f, init, i, m);
    assert FirstFailureAt(f, xs, i, m);
  }

  /** One more element after a prefix that succeeded: its result is
      appended, or its failure is the outcome. */
  lemma MapOutcomeStep<A, B>(f: A -> Outcome<B>, xs: seq<A>, i: nat)
    requires i < |xs| && MapOutcome(f, xs[..i]).Ok?
    ensures MapOutcome(f, xs[..i + 1]) ==
      match f(xs[i])
      case Ok(v) => Ok(MapOutcome(f, xs[..i]).value + [v])
      case Fail(m) => Fail(m)
  {
    assert xs[..i + 1][..i] == xs[..i];
  }

  /** Once a prefix fails, the whole sequence fails with the same message:
      later elements cannot change the outcome. */
  lemma {:induction false} MapOutcomePrefixFail<A, B>(f: A -> Outcome<B>, xs: seq<A>, i: nat)
    requires i <= |xs|
    requires MapOutcome(f, xs[..i]).Fail?
    ensures MapOutcome(f, xs) == MapOutcome(f, xs[..i])
    decreases |xs| - i
  {
    if i < |xs| {
      assert xs[..i + 1][..i] == xs[..i];
      MapOutcomePrefixFail(f, xs, i + 1);
    } else {
      assert xs[..i] == xs;
    }
  }

  // ---------------------------------------------------------------------
  // PaddleOCR results
  // ---------------------------------------------------------------------

  /** The texts of one page's lines, in order. */
  function PageTexts(page: seq<Detection>): (r: seq<string>)
    ensures |r| == |page|
    ensures forall j :: 0 <= j < |page| ==> r[j] == page[j].text
  {
    seq(|page|, j requires 0 <= j < |page| => page[j].text)
  }

  /** `[line[1][0] for page in result for line in page]`. */
  function LineTexts(result: seq<seq<Detection>>): seq<string>
    decreases |result|
  {
    if result == [] then []
    else LineTexts(result[..|result| - 1]) + PageTexts(result[|result| - 1])
  }

  /** Number of lines on the pages before page `p`. */
  function LinesBefore(result: seq<seq<Detection>>, p: nat): nat
    requires p <= |result|
    decreases p
  {
    if p == 0 then 0 else LinesBefore(result, p - 1) + |result[p - 1]|
  }

  /** The flattened list holds every line once, page by page: line `j` of
      page `p` sits after all lines of earlier pages. */
  lemma {:induction false} LineTextsAt(result: seq<seq<Detection>>, p: nat, j: nat)
    requires p < |result| && j < |result[p]|
    ensures |LineTexts(result)| == LinesBefore(result, |result|)
    ensures LinesBefore(result, p) + j < |LineTexts(result)|
    ensures LineTexts(result)[LinesBefore(result, p) + j] == result[p][j].text
    decreases |result|
  {
    var n := |result|;
    var init := result[..n - 1];
    assert forall q :: 0 <= q < n - 1 ==> init[q] == result[q];
    LinesBeforeOfPrefix(result, init, n - 1);
    LinesBeforeOfPrefix(result, init, p);
    LineTextsLength(init);
    assert LineTexts(result) == LineTexts(init) + PageTexts(result[n - 1]);
    if p < n - 1 {
      LineTextsAt(init, p, j);
    }
  }

  /** Line counts before page `p` agree for sequences that agree before `p`. */
  lemma {:induction false} LinesBeforeOfPrefix(a: seq<seq<Detection>>, b: seq<seq<Detection>>, p: nat)
    requires p <= |a| && p <= |b|
    requires forall q :: 0 <= q < p ==> a[q] == b[q]
    ensures LinesBefore(a, p) == LinesBefore(b, p)
    decreases p
  {
    if p > 0 {
      LinesBeforeOfPrefix(a, b, p - 1);
    }
  }

  /** The flattened list has as many entries as there are lines. */
  lemma {:induction false} LineTextsLength(result: seq<seq<Detection>>)
    ensures |LineTexts(result)| == LinesBefore(result, |result|)
    decreases |result|
  {
    if result != [] {
      var init := result[..|result| - 1];
      LineTextsLength(init);
      LinesBeforeOfPrefix(result, init, |result| - 1);
    }
  }
}

=== FILE: pair_extraction.dfy ===
/** The unkeyed extraction endpoint (`/extract`): read the document with
    PaddleOCR into one text, then turn each line into a dictionary entry:
    `key: value` lines by their key, other non-blank lines by position. */
module PairExtraction {
  import opened Wrappers
  import opened PyStr
  import opened PyDict
  import opened Oracles

  // ---------------------------------------------------------------------
  // Reading text
  // ---------------------------------------------------------------------

  /** `ocr_image`: every recognised line, page by page, joined by single spaces. */
  function ImageText(e: Engines, img: Image): (r: Outcome<string>)
    ensures r.Ok? <==> e.paddle(img).Ok?
  {
    match e.paddle(img)
    case Fail(m) => Fail(m)
    case Ok(result) => Ok(Join(" ", LineTexts(result)))
  }

  /** `process_page`: `preprocess_image` then `ocr_image`. */
  function ProcessPage(e: Engines): Image -> Outcome<string> {
    (p: Image) => ImageText(e, e.shrinkGray(p))
  }

  /** What `ocr_pdf` returns: each page's text, in page order, joined by
      newlines. */
  function PdfText(e: Engines, content: Bytes): Outcome<string> {
    match e.rasterize(content)
    case Fail(m) => Fail(m)
    case Ok(pages) =>
      match MapOutcome(ProcessPage(e), pages)
      case Fail(m) => Fail(m)
      case Ok(texts) => Ok(Join("\n", texts))
  }

  /** `ocr_pdf`: `texts.extend(executor.map(process_page, pages))`, then
      `"\n".join(texts)`. The map's results are taken in page order, which
      is the order this loop runs in; the first page that raised raises here. */
  method OcrPdf(e: Engines, content: Bytes) returns (r: Outcome<string>)
    ensures r == PdfText(e, content)
  {
    var raster := e.rasterize(content);
    if raster.Fail? {
      return Fail(raster.message);
    }
    var pages := raster.value;
    var texts: seq<string> := [];
    var i := 0;
    while i < |pages|
      invariant 0 <= i <= |pages|
      invariant MapOutcome(ProcessPage(e), pages[..i]) == Ok(texts)
    {
      var t := ImageText(e, e.shrinkGray(pages[i]));
      MapOutcomeStep(ProcessPage(e), pages, i);
      if t.Fail? {
        MapOutcomePrefixFail(ProcessPage(e), pages, i + 1);
        return Fail(t.message);
      }
      texts := texts + [t.value];
      i := i + 1;
    }
    assert pages[..i] == pages;
    r := Ok(Join("\n", texts));
  }

  /** When every page is read, the PDF text is the page texts in the
      original page order joined by newlines; when no page text holds a
      newline, splitting it on newlines gives the pages back. */
  lemma PdfTextOfPages(e: Engines, content: Bytes, pages: seq<Image>, texts: seq<string>)
    requires e.rasterize(content) == Ok(pages)
    requires |texts| == |pages|
    requires forall i :: 0 <= i < |pages| ==> ImageText(e, e.shrinkGray(pages[i])) == Ok(texts[i])
    ensures PdfText(e, content) == Ok(Join("\n", texts))
    ensures |pages| >= 1 && (forall i :: 0 <= i < |texts| ==> '\n' !in texts[i]) ==>
            Split(Join("\n", texts), '\n') == texts
  {
    var m := MapOutcome(ProcessPage(e), pages);
    assert forall i :: 0 <= i < |pages| ==> ProcessPage(e)(pages[i]) == Ok(texts[i]);
    assert m.Ok?;
    assert m.value == texts;
    if |pages| >= 1 && (forall i :: 0 <= i < |texts| ==> '\n' !in texts[i]) {
      SplitJoin(texts, '\n');
    }
  }

  // ---------------------------------------------------------------------
  // The key:value parser
  // ---------------------------------------------------------------------

  /** The key of a line with a colon: the text before the first colon,
      stripped and lower-cased. */
  function ColonKey(line: string): string
    requires ':' in line
  {
    Lower(Strip(Before(line, ':')))
  }

  /** The value of a line with a colon: the text after the first colon, stripped. */
  function ColonValue(line: string): (v: string)
    requires ':' in line
    ensures IsStripped(v)
  {
    Strip(After(line, ':'))
  }

  /** A line splits at its first colon: the key is what comes before it and
      the value is everything after it, further colons included. */
  lemma ColonLineParts(k: string, v: string)
    requires ':' !in k
    ensures ':' in k + ":" + v
    ensures ColonKey(k + ":" + v) == Lower(Strip(k))
    ensures ColonValue(k + ":" + v) == Strip(v)
  {
    SplitFirst(k, ':', v);
  }

  /** The key a colon-free line gets when the dict already has `n` entries. */
  function CampoKey(n: nat): (k: string)
    ensures "campo_" <= k && |k| > |"campo_"|
  {
    "campo_" + NatToString(n + 1)
  }

  /** One turn of the parser loop on `line`. */
  function Step(d: Dict<string, string>, line: string): Dict<string, string> {
    if ':' in line then Put(d, ColonKey(line), ColonValue(line))
    else if Strip(line) != "" then Put(d, CampoKey(|d|), Strip(line))
    else d
  }

  /** The parser loop run over `lines`, in order, starting from the dict `d`. */
  function Run(d: Dict<string, string>, lines: seq<string>): Dict<string, string>
    decreases |lines|
  {
    if lines == [] then d else Run(Step(d, lines[0]), lines[1..])
  }

  /** What the parser builds from the lines, starting from an empty dict. */
  function Pairs(lines: seq<string>): Dict<string, string> {
    Run([], lines)
  }

  /** The parser loop of `extract`: split the text on newlines; a line with a
      colon stores `key -> value`; any other non-blank line stores its
      stripped text under `campo_{len(data)+1}`; blank lines are skipped. */
  method ParsePairs(text: string) returns (data: Dict<string, string>)
    ensures data == Pairs(Split(text, '\n'))
  {
    data := [];
    var lines := Split(text, '\n');
    var rest := lines;
    while rest != []
      invariant Run(data, rest) == Pairs(lines)
      decreases |rest|
    {
      var line := rest[0];
      if ':' in line {
        var chave, valor := Before(line, ':'), After(line, ':');
        data := Put(data, Lower(Strip(chave)), Strip(valor));
      } else if Strip(line) != "" {
        data := Put(data, "campo_" + NatToString(|data| + 1), Strip(line));
      }
      rest := rest[1..];
    }
  }

  /** Running over `a + b` is running over `a`, then over `b`. */
  lemma {:induction false} RunAppend(d: Dict<string, string>, a: seq<string>, b: seq<string>)
    ensures Run(d, a + b) == Run(Run(d, a), b)
    decreases |a|
  {
    if a == [] {
      assert a + b == b;
    } else {
      assert (a + b)[0] == a[0];
      assert (a + b)[1..] == a[1..] + b;
      RunAppend(Step(d, a[0]), a[1..], b);
    }
  }

  /** Running over one line is one step. */
  lemma RunOne(d: Dict<string, string>, line: string)
    ensures Run(d, [line]) == Step(d, line)
  {
    assert [line][1..] == [];
  }

  /** Running over two lines is two steps. */
  lemma RunTwo(d: Dict<string, string>, a: string, b: string)
    ensures Run(d, [a, b]) == Step(Step(d, a), b)
  {
    assert [a, b][1..] == [b];
    RunOne(Step(d, a), b);
  }

  /** Running over three lines is three steps. */
  lemma RunThree(d: Dict<string, string>, a: string, b: string, c: string)
    ensures Run(d, [a, b, c]) == Step(Step(Step(d, a), b), c)
  {
    assert [a, b, c][1..] == [b, c];
    RunTwo(Step(d, a), b, c);
  }

  /** A line with a colon stores its value under its key, leaves every other
      key alone, and adds an entry only when the key is new: a repeated key
      is overwritten in place. */
  lemma ColonStep(d: Dict<string, string>, line: string)
    requires ':' in line
    ensures Get(Step(d, line), ColonKey(line)) == Some(ColonValue(line))
    ensures forall k :: k != ColonKey(line) ==> Get(Step(d, line), k) == Get(d, k)
    ensures ColonKey(line) in Keys(d) ==> Keys(Step(d, line)) == Keys(d)
  {
    forall k {
      PutGet(d, ColonKey(line), ColonValue(line), k);
    }
  }

  /** A blank line without a colon adds nothing. */
  lemma BlankStep(d: Dict<string, string>, line: string)
    requires ':' !in line && IsBlank(line)
    ensures Step(d, line) == d
  {
  }

  /** A non-blank colon-free line is stored, stripped, under `campo_k` with
      `k` one more than the number of entries so far (colon entries
      included), and every other key keeps its value. */
  lemma UnkeyedStep(d: Dict<string, string>, line: string)
    requires ':' !in line && !IsBlank(line)
    ensures Get(Step(d, line), "campo_" + NatToString(|d| + 1)) == Some(Strip(line))
    ensures forall k :: k != CampoKey(|d|) ==> Get(Step(d, line), k) == Get(d, k)
  {
    forall k {
      PutGet(d, CampoKey(|d|), Strip(line), k);
    }
  }

  /** The dict never has more entries than there were lines, never repeats a
      key, and every stored value is stripped. */
  lemma PairsShape(lines: seq<string>)
    ensures |Pairs(lines)| <= |lines|
    ensures DistinctKeys(Pairs(lines))
    ensures forall x :: x in Pairs(lines) ==> IsStripped(x.1)
  {
    RunShape([], lines);
  }

  /** Each line adds at most one entry, keeps the keys distinct and stores a
      stripped value. */
  lemma {:induction false} RunShape(d: Dict<string, string>, lines: seq<string>)
    requires DistinctKeys(d) && forall x :: x in d ==> IsStripped(x.1)
    ensures |Run(d, lines)| <= |d| + |lines|
    ensures DistinctKeys(Run(d, lines))
    ensures forall x :: x in Run(d, lines) ==> IsStripped(x.1)
    decreases |lines|
  {
    if lines != [] {
      var line := lines[0];
      if ':' in line {
        PutDistinct(d, ColonKey(line), ColonValue(line));
        PutEntries(d, ColonKey(line), ColonValue(line));
      } else if Strip(line) != "" {
        PutDistinct(d, CampoKey(|d|), Strip(line));
        PutEntries(d, CampoKey(|d|), Strip(line));
      }
      assert |Keys(Step(d, line))| <= |Keys(d)| + 1;
      RunShape(Step(d, line), lines[1..]);
    }
  }

  /** The last line that writes a key decides its value: after a colon line,
      its key keeps its value as long as no later colon line has the same
      key, provided the key is not a positional key `campo_<n>` (which a
      later colon-free line could also produce). */
  lemma LastColonWins(before: seq<string>, line: string, after: seq<string>)
    requires ':' in line && forall n: nat :: ColonKey(line) != CampoKey(n)
    requires forall j :: 0 <= j < |after| && ':' in after[j] ==> ColonKey(after[j]) != ColonKey(line)
    ensures Get(Pairs(before + [line] + after), ColonKey(line)) == Some(ColonValue(line))
  {
    var d := Run([], before);
    RunAppend([], before + [line], after);
    RunAppend([], before, [line]);
    RunOne(d, line);
    ColonStep(d, line);
    RunKeeps(Step(d, line), after, ColonKey(line), ColonValue(line));
  }

  /** A key that no remaining line writes keeps its value to the end. */
  lemma {:induction false} RunKeeps(d: Dict<string, string>, rest: seq<string>, key: string, v: string)
    requires Get(d, key) == Some(v) && forall n: nat :: key != CampoKey(n)
    requires forall j :: 0 <= j < |rest| && ':' in rest[j] ==> ColonKey(rest[j]) != key
    ensures Get(Run(d, rest), key) == Some(v)
    decreases |rest|
  {
    if rest != [] {
      var line := rest[0];
      if ':' in line {
        ColonStep(d, line);
      } else if Strip(line) != "" {
        assert CampoKey(|d|) != key;
        UnkeyedStep(d, line);
      }
      assert Get(Step(d, line), key) == Some(v);
      RunKeeps(Step(d, line), rest[1..], key, v);
    }
  }

  // ---------------------------------------------------------------------
  // Worked examples
  // ---------------------------------------------------------------------

  /** `"Nome: Ana"` stores `"nome" -> "Ana"`. */
  lemma NomeStep(k: string, v: string)
    requires k == "Nome" && v == " Ana"
    ensures Step([], k + ":" + v) == [("nome", "Ana")]
  {
    NomeKey(k, v);
    NomeValue(k, v);
  }

  /** A line `"Nome:..."` has the key `"nome"`. */
  lemma NomeKey(k: string, v: string)
    requires k == "Nome"
    ensures ':' in k + ":" + v && ColonKey(k + ":" + v) == "nome"
  {
    ColonLineParts(k, v);
    NomeKeyText(k);
  }

  /** `"Nome".strip().lower()` is `"nome"`. */
  lemma NomeKeyText(k: string)
    requires k == "Nome"
    ensures Lower(Strip(k)) == "nome"
  {
    StripOfStripped(k);
    var r := Lower(k);
    assert r[0] == LowerChar('N') == 'n';
    assert r[1] == 'o' && r[2] == 'm' && r[3] == 'e';
  }

  /** A line `"...: Ana"` with no colon before the one shown has the value `"Ana"`. */
  lemma NomeValue(k: string, v: string)
    requires ':' !in k && v == " Ana"
    ensures ':' in k + ":" + v && ColonValue(k + ":" + v) == "Ana"
  {
    ColonLineParts(k, v);
    StripAna(v);
  }

  /** `"texto solto"` after one entry is stored under `campo_2`. */
  lemma SoltoStep(d: Dict<string, string>, line: string)
    requires line == "texto solto" && d == [("nome", "Ana")]
    ensures Step(d, line) == [("nome", "Ana"), ("campo_2", "texto solto")]
  {
    assert line[0] != ':' && line[6] != ':';
    assert ':' !in line;
    StripOfStripped(line);
    assert line != "";
    assert Step(d, line) == Put(d, CampoKey(1), line);
    assert NatToString(2) == "2";
    var k := CampoKey(1);
    assert k == "campo_2";
    assert k[0] != "nome"[0];
    assert d[0].0 != k;
    assert Put(d, k, line) == [d[0]] + Put(d[1..], k, line);
    assert d[1..] == [];
  }

  /** `["Nome: Ana", "", "texto solto"]` gives `{"nome": "Ana", "campo_2":
      "texto solto"}`: the blank line is skipped, and the counter counts
      the colon entry too, so the first unkeyed line is `campo_2`. */
  lemma UnkeyedExample()
    ensures Pairs(["Nome: Ana", "", "texto solto"]) == [("nome", "Ana"), ("campo_2", "texto solto")]
  {
    var a, b, c := "Nome: Ana", "", "texto solto";
    RunThree([], a, b, c);
    NomeAnaParts(a);
    NomeStep("Nome", " Ana");
    BlankStep([("nome", "Ana")], b);
    SoltoStep([("nome", "Ana")], c);
  }

  /** A colon line whose key has the form `campo_k` can be overwritten by a
      later colon-free line: `["campo_2: v", "a"]` keeps only `"a"`. */
  lemma CampoKeyCollision()
    ensures Pairs(["campo_2: v", "a"]) == [("campo_2", "a")]
  {
    var a, b := "campo_2: v", "a";
    RunTwo([], a, b);
    CampoLine(a);
    CampoFirstStep("campo_2", " v");
    OverwriteCampo2(Step([], a), b);
  }

  /** `"campo_2: v"` is the key, a colon and the rest. */
  lemma CampoLine(a: string)
    requires a == "campo_2: v"
    ensures a == "campo_2" + ":" + " v"
  {
  }

  /** A first line `"campo_2:..."` makes a dict with the one key `"campo_2"`. */
  lemma CampoFirstStep(k: string, v: string)
    requires k == "campo_2"
    ensures |Step([], k + ":" + v)| == 1 && Step([], k + ":" + v)[0].0 == "campo_2"
  {
    CampoLineKey(k, v);
  }

  /** A colon-free line after one `campo_2` entry overwrites it. */
  lemma OverwriteCampo2(d: Dict<string, string>, line: string)
    requires |d| == 1 && d[0].0 == "campo_2" && line == "a"
    ensures Step(d, line) == [("campo_2", "a")]
  {
    assert ':' !in line;
    StripOfStripped(line);
    assert NatToString(2) == "2";
    assert CampoKey(|d|) == "campo_2";
  }

  /** A line `"campo_2:..."` has the key `"campo_2"`. */
  lemma CampoLineKey(k: string, v: string)
    requires k == "campo_2"
    ensures ':' in k + ":" + v && ColonKey(k + ":" + v) == "campo_2"
  {
    ColonLineParts(k, v);
    CampoKeyText(k);
  }

  /** `"campo_2".strip().lower()` is `"campo_2"`. */
  lemma CampoKeyText(k: string)
    requires k == "campo_2"
    ensures Lower(Strip(k)) == k
  {
    StripOfStripped(k);
    LowerOfLowerCase(k);
  }

  // ---------------------------------------------------------------------
  // The endpoint
  // ---------------------------------------------------------------------

  /** The reply once the text is read, or the exception that escapes. */
  function Parsed(filename: string, read: Outcome<string>): Reply<Dict<string, string>> {
    match read
    case Fail(m) => Uncaught(m)
    case Ok(text) => Reply(filename, Pairs(Split(text, '\n')))
  }

  /** `extract`: dispatch on the extension, read the text, parse it. Nothing
      here catches exceptions, so an engine failure escapes the handler. */
  function Extract(e: Engines, filename: string, content: Bytes): (r: Reply<Dict<string, string>>)
    ensures r.Reply? ==> r.documento == filename
    ensures r.ErrorReply? <==> FormatOf(filename) == Unsupported
    ensures r.ErrorReply? ==> r.error == UnsupportedMessage
  {
    match FormatOf(filename)
    case Raster =>
      (match e.openImage(content)
       case Fail(m) => Uncaught(m)
       case Ok(img) => Parsed(filename, ImageText(e, e.shrinkGray(img))))
    case Pdf => Parsed(filename, PdfText(e, content))
    case Unsupported => ErrorReply(UnsupportedMessage)
  }

  /** A PDF reply is the parse of the page texts, rendered and read in page
      order and joined by newlines, split back into lines; a failure of the
      renderer or of any page escapes the handler. */
  lemma ExtractPdf(e: Engines, filename: string, content: Bytes)
    requires FormatOf(filename) == Pdf
    ensures PdfText(e, content).Ok? ==>
            Extract(e, filename, content) == Reply(filename, Pairs(Split(PdfText(e, content).value, '\n')))
    ensures PdfText(e, content).Fail? ==>
            Extract(e, filename, content) == Uncaught(PdfText(e, content).message)
  {
  }

  /** An image reply is the parse of the PaddleOCR lines of the opened,
      shrunk and greyed image, joined by spaces; an exception from opening
      the image or from PaddleOCR escapes the handler. */
  lemma ExtractImage(e: Engines, filename: string, content: Bytes)
    requires FormatOf(filename) == Raster
    ensures e.openImage(content).Fail? ==>
            Extract(e, filename, content) == Uncaught(e.openImage(content).message)
    ensures e.openImage(content).Ok? && e.paddle(e.shrinkGray(e.openImage(content).value)).Fail? ==>
            Extract(e, filename, content) ==
            Uncaught(e.paddle(e.shrinkGray(e.openImage(content).value)).message)
    ensures e.openImage(content).Ok? && e.paddle(e.shrinkGray(e.openImage(content).value)).Ok? ==>
            Extract(e, filename, content) ==
            Reply(filename, Pairs(Split(Join(" ", LineTexts(e.paddle(e.shrinkGray(e.openImage(content).value)).value)), '\n')))
  {
  }

  /** An unsupported extension is refused before anything is read or parsed. */
  lemma ExtractUnsupported(e: Engines, e': Engines, filename: string, content: Bytes)
    requires FormatOf(filename) == Unsupported
    ensures Extract(e, filename, content) == Extract(e', filename, content) == ErrorReply(UnsupportedMessage)
  {
  }

  /** A successful reply has distinct keys and stripped values. */
  lemma ExtractShape(e: Engines, filename: string, content: Bytes)
    requires Extract(e, filename, content).Reply?
    ensures var d := Extract(e, filename, content).payload;
      DistinctKeys(d) && forall x :: x in d ==> IsStripped(x.1)
  {
    var read :=
      if FormatOf(filename) == Pdf then PdfText(e, content)
      else ImageText(e, e.shrinkGray(e.openImage(content).value));
    PairsShape(Split(read.value, '\n'));
  }
}

=== FILE: pydict.dfy ===
/** Python's insertion-ordered `dict`, as the list of its entries in
    insertion order. */
module PyDict {
  import opened Wrappers

  /** The entries of a dict, oldest key first. */
  type Dict<K, V> = seq<(K, V)>

  /** `list(d.keys())`. */
  function Keys<K, V>(d: Dict<K, V>): (ks: seq<K>)
    ensures |ks| == |d|
    ensures forall i :: 0 <= i < |d| ==> ks[i] == d[i].0
  {
    seq(|d|, i requires 0 <= i < |d| => d[i].0)
  }

  /** No key appears twice: a well-formed dict. */
  predicate DistinctKeys<K(==), V>(d: Dict<K, V>) {
    forall i, j :: 0 <= i < j < |d| ==> d[i].0 != d[j].0
  }

  /** `d.get(k)`: the value of the first entry with key `k`. */
  function Get<K(==), V>(d: Dict<K, V>, k: K): (r: Option<V>)
    ensures r.Some? <==> k in Keys(d)
    decreases |d|
  {
    if d == [] then None
    else if d[0].0 == k then Some(d[0].1)
    else
      assert Keys(d) == [d[0].0] + Keys(d[1..]);
      Get(d[1..], k)
  }

  /** `d[k] = v`: overwrite the value in place when `k` is already a key,
      otherwise append a new entry at the end. */
  function Put<K(==), V>(d: Dict<K, V>, k: K, v: V): (r: Dict<K, V>)
    ensures Keys(r) == if k in Keys(d) then Keys(d) else Keys(d) + [k]
    decreases |d|
  {
    if d == [] then [(k, v)]
    else if d[0].0 == k then [(k, v)] + d[1..]
    else
      assert Keys(d) == [d[0].0] + Keys(d[1..]);
      var r := [d[0]] + Put(d[1..], k, v);
      assert Keys(r) == [d[0].0] + Keys(Put(d[1..], k, v));
      r
  }

  /** After `d[k] = v`, `k` maps to `v` and every other key keeps its value. */
  lemma {:induction false} PutGet<K, V>(d: Dict<K, V>, k: K, v: V, k': K)
    ensures Get(Put(d, k, v), k') == if k' == k then Some(v) else Get(d, k')
    decreases |d|
  {
    if d != [] && d[0].0 != k {
      PutGet(d[1..], k, v, k');
      assert Put(d, k, v)[1..] == Put(d[1..], k, v);
    }
  }

  /** `d[k] = v` keeps the keys of a dict distinct. */
  lemma PutDistinct<K, V>(d: Dict<K, V>, k: K, v: V)
    requires DistinctKeys(d)
    ensures DistinctKeys(Put(d, k, v))
  {
    var r := Put(d, k, v);
    assert Keys(r) == if k in Keys(d) then Keys(d) else Keys(d) + [k];
    forall i, j | 0 <= i < j < |r| ensures r[i].0 != r[j].0 {
      assert Keys(r)[i] == r[i].0 && Keys(r)[j] == r[j].0;
      if j >= |d| {
        assert k !in Keys(d);
        assert Keys(d)[i] == d[i].0;
      } else {
        assert Keys(d)[i] == d[i].0 && Keys(d)[j] == d[j].0;
      }
    }
  }

  /** Every entry after `d[k] = v` is `(k, v)` or an entry that was already there. */
  lemma {:induction false} PutEntries<K, V>(d: Dict<K, V>, k: K, v: V)
    ensures forall x :: x in Put(d, k, v) ==> x == (k, v) || x in d
    decreases |d|
  {
    if d != [] && d[0].0 != k {
      PutEntries(d[1..], k, v);
      assert Put(d, k, v) == [d[0]] + Put(d[1..], k, v);
      forall x | x in Put(d[1..], k, v) ensures x == (k, v) || x in d {
        if x != (k, v) {
          assert x in d[1..];
        }
      }
    } else if d != [] {
      assert forall x :: x in d[1..] ==> x in d;
    }
  }

  /** `for k in ks: d[k] = val(k)`, starting from an empty dict. */
  function PutEach<K(==), V>(ks: seq<K>, val: K -> V): Dict<K, V>
    decreases |ks|
  {
    if ks == [] then []
    else Put(PutEach(ks[..|ks| - 1], val), ks[|ks| - 1], val(ks[|ks| - 1]))
  }

  /** The keys set by the loop are exactly the keys it was given, each once. */
  lemma {:induction false} PutEachKeys<K, V>(ks: seq<K>, val: K -> V)
    ensures DistinctKeys(PutEach(ks, val))
    ensures forall k :: k in Keys(PutEach(ks, val)) <==> k in ks
    decreases |ks|
  {
    if ks != [] {
      var init, k := ks[..|ks| - 1], ks[|ks| - 1];
      var d := PutEach(init, val);
      PutEachKeys(init, val);
      PutDistinct(d, k, val(k));
      assert ks == init + [k];
      forall x ensures x in Keys(PutEach(ks, val)) <==> x in ks {
        assert x in Keys(d) + [k] <==> x in Keys(d) || x == k;
      }
    }
  }

  /** Every key given to the loop ends up with its own value. */
  lemma {:induction false} PutEachValues<K, V>(ks: seq<K>, val: K -> V)
    ensures forall i :: 0 <= i < |ks| ==> Get(PutEach(ks, val), ks[i]) == Some(val(ks[i]))
    decreases |ks|
  {
    if ks != [] {
      var n := |ks| - 1;
      var init, k := ks[..n], ks[n];
      var d := PutEach(init, val);
      assert PutEach(ks, val) == Put(d, k, val(k));
      PutEachValues(init, val);
      forall i | 0 <= i < |ks| ensures Get(PutEach(ks, val), ks[i]) == Some(val(ks[i])) {
        var x := ks[i];
        PutGet(d, k, val(k), x);
        if x != k {
          assert i < n;
          assert init[i] == x;
          assert Get(d, x) == Some(val(x));
        }
      }
    }
  }
}

=== FILE: pystr.dfy ===
/** The Python `str` operations the OCR service relies on, stated over
    `seq<char>`: `isspace`/`strip`, `lower`, `in`, `split` (whole and
    `split(':', 1)`), `join`, `+=` concatenation, `str(n)` and
    `os.path.splitext`. `Find` and `RFind` are helpers: the first colon
    `split(':', 1)` cuts at, and the last dot or separator `splitext` looks for. */
module PyStr {
  import opened Wrappers

  // ---------------------------------------------------------------------
  // Whitespace and strip
  // ---------------------------------------------------------------------

  /** `c.isspace()`: the characters Python's `str.strip()` removes. */
  predicate IsSpace(c: char) {
    || ('\t' <= c <= '\r')
    || ('\U{1c}' <= c <= '\U{1f}')
    || c == ' ' || c == '\U{85}' || c == '\U{a0}' || c == '\U{1680}'
    || ('\U{2000}' <= c <= '\U{200a}')
    || c == '\U{2028}' || c == '\U{2029}' || c == '\U{202f}'
    || c == '\U{205f}' || c == '\U{3000}'
  }

  /** `not s.strip()`: the string is empty or whitespace only. */
  predicate IsBlank(s: string) {
    forall k :: 0 <= k < |s| ==> IsSpace(s[k])
  }

  /** Neither end of `s` is whitespace: what `strip` guarantees. */
  predicate IsStripped(s: string) {
    s == [] || (!IsSpace(s[0]) && !IsSpace(s[|s| - 1]))
  }

  /** Number of leading whitespace characters. */
  function LeadingSpace(s: string): (n: nat)
    ensures n <= |s|
    ensures forall k :: 0 <= k < n ==> IsSpace(s[k])
    ensures n < |s| ==> !IsSpace(s[n])
    decreases |s|
  {
    if s == [] || !IsSpace(s[0]) then 0 else 1 + LeadingSpace(s[1..])
  }

  /** Number of trailing whitespace characters. */
  function TrailingSpace(s: string): (n: nat)
    ensures n <= |s|
    ensures forall k :: |s| - n <= k < |s| ==> IsSpace(s[k])
    ensures n < |s| ==> !IsSpace(s[|s| - 1 - n])
    decreases |s|
  {
    if s == [] || !IsSpace(s[|s| - 1]) then 0 else 1 + TrailingSpace(s[..|s| - 1])
  }

  /** `s.strip()`: the slice of `s` left after removing whitespace at both ends. */
  function Strip(s: string): (r: string)
    ensures IsStripped(r)
    ensures LeadingSpace(s) + |r| <= |s|
    ensures r == s[LeadingSpace(s)..LeadingSpace(s) + |r|]
    ensures forall k :: LeadingSpace(s) + |r| <= k < |s| ==> IsSpace(s[k])
    ensures r == [] <==> IsBlank(s)
  {
    var t := s[LeadingSpace(s)..];
    t[..|t| - TrailingSpace(t)]
  }

  /** Stripping a string without whitespace at its ends changes nothing;
      in particular `strip` is idempotent. */
  lemma StripOfStripped(s: string)
    requires IsStripped(s)
    ensures Strip(s) == s
  {
    assert LeadingSpace(s) == 0;
    assert TrailingSpace(s) == 0;
  }

  // ---------------------------------------------------------------------
  // Case mapping
  // ---------------------------------------------------------------------

  /** `c.lower()` for ASCII and Latin-1 letters (all of Portuguese);
      every other character is left unchanged. */
  function LowerChar(c: char): (r: char)
    ensures IsSpace(r) <==> IsSpace(c)
    ensures 'A' <= c <= 'Z' ==> r as int == c as int + 32
    ensures '\U{c0}' <= c <= '\U{de}' && c != '\U{d7}' ==> r as int == c as int + 32
    ensures c == '\U{d7}' ==> r == c
    ensures !('A' <= c <= 'Z') && !('\U{c0}' <= c <= '\U{de}') ==> r == c
  {
    if ('A' <= c <= 'Z') || ('\U{c0}' <= c <= '\U{de}' && c != '\U{d7}')
    then (c as int + 32) as char
    else c
  }

  /** A string of small letters, digits and underscores is its own lower case. */
  lemma LowerOfLowerCase(s: string)
    requires forall k :: 0 <= k < |s| ==> 'a' <= s[k] <= 'z' || '0' <= s[k] <= '9' || s[k] == '_'
    ensures Lower(s) == s
  {
  }

  /** `s.lower()`, character by character. */
  function Lower(s: string): (r: string)
    ensures |r| == |s|
    ensures forall k :: 0 <= k < |s| ==> r[k] == LowerChar(s[k])
  {
    seq(|s|, k requires 0 <= k < |s| => LowerChar(s[k]))
  }

  // ---------------------------------------------------------------------
  // Searching
  // ---------------------------------------------------------------------

  /** `t in s`: `t` occurs in `s` as a contiguous substring. */
  predicate Contains(s: string, t: string)
    decreases |s|
  {
    t <= s || (s != [] && Contains(s[1..], t))
  }

  /** `t` occurs in `s` starting at index `i`. */
  predicate OccursAt(s: string, t: string, i: int) {
    0 <= i <= |s| - |t| && s[i..i + |t|] == t
  }

  /** `t in s` holds exactly when `t` occurs at some index of `s`. */
  lemma {:induction false} ContainsAt(s: string, t: string)
    ensures Contains(s, t) <==> exists i :: OccursAt(s, t, i)
    decreases |s|
  {
    assert OccursAt(s, t, 0) <==> t <= s;
    if s != [] {
      ContainsAt(s[1..], t);
      forall i | 1 <= i ensures OccursAt(s, t, i) <==> OccursAt(s[1..], t, i - 1) {
        OccursAtTail(s, t, i);
      }
      if Contains(s[1..], t) {
        var i :| OccursAt(s[1..], t, i);
        assert OccursAt(s, t, i + 1);
      }
    }
  }

  /** An occurrence past the first index of `s` is one index earlier in `s[1..]`. */
  lemma OccursAtTail(s: string, t: string, i: int)
    requires s != [] && 1 <= i
    ensures OccursAt(s, t, i) <==> OccursAt(s[1..], t, i - 1)
  {
    if i <= |s| - |t| {
      assert s[1..][i - 1..i - 1 + |t|] == s[i..i + |t|];
    }
  }

  /** The empty string occurs in every string (`"" in s` is always true). */
  lemma EmptyContained(s: string)
    ensures Contains(s, "")
  {
  }

  /** `s.find(c)`: the first index of `c` in `s`, or None. */
  function Find(s: string, c: char): (r: Option<nat>)
    ensures r.None? <==> c !in s
    ensures r.Some? ==> r.value < |s| && s[r.value] == c && c !in s[..r.value]
    decreases |s|
  {
    if s == [] then None
    else if s[0] == c then Some(0)
    else match Find(s[1..], c)
      case None => None
      case Some(i) => Some(i + 1)
  }

  /** `s.rfind(c)`: the last index of `c` in `s`, or -1. */
  function RFind(s: string, c: char): (r: int)
    ensures -1 <= r < |s|
    ensures r >= 0 ==> s[r] == c
    ensures forall k :: r < k < |s| ==> s[k] != c
    decreases |s|
  {
    if s == [] then -1
    else if s[|s| - 1] == c then |s| - 1
    else RFind(s[..|s| - 1], c)
  }

  /** First part of `s.split(c, 1)` when `c in s`: the text before the first `c`. */
  function Before(s: string, c: char): (r: string)
    requires c in s
    ensures c !in r
    ensures r + [c] <= s
  {
    s[..Find(s, c).value]
  }

  /** Second part of `s.split(c, 1)` when `c in s`: the text after the first `c`. */
  function After(s: string, c: char): (r: string)
    requires c in s
    ensures Before(s, c) + [c] + r == s
  {
    s[Find(s, c).value + 1..]
  }

  /** `a + c + b` with no `c` in `a` splits once into `a` and `b`, whatever
      `b` holds. */
  lemma SplitFirst(a: string, c: char, b: string)
    requires c !in a
    ensures c in a + [c] + b
    ensures Before(a + [c] + b, c) == a && After(a + [c] + b, c) == b
  {
    FindAfterFree(a, c, b);
    var s := a + [c] + b;
    assert s[..|a|] == a;
    assert s[|a| + 1..] == b;
  }

  /** One space in front of a stripped, non-empty string is stripped off. */
  lemma StripSpaceBefore(s: string)
    requires |s| >= 2 && s[0] == ' ' && IsStripped(s[1..])
    ensures Strip(s) == s[1..]
  {
    assert LeadingSpace(s) == 1 by {
      assert !IsSpace(s[1..][0]);
    }
    StripOfStripped(s[1..]);
  }

  /** `" Ana".strip()` is `"Ana"`: one leading space goes, the word stays. */
  lemma StripAna(v: string)
    requires v == " Ana"
    ensures Strip(v) == "Ana"
  {
    StripSpaceBefore(v);
    assert v[1..] == "Ana";
  }

  /** `"Nome: Ana"` is `"Nome"`, a colon and `" Ana"`. */
  lemma NomeAnaParts(s: string)
    requires s == "Nome: Ana"
    ensures s == "Nome" + ":" + " Ana"
  {
  }

  // ---------------------------------------------------------------------
  // Split and join
  // ---------------------------------------------------------------------

  /** `s.split(c)` with an explicit one-character separator. */
  function Split(s: string, c: char): (r: seq<string>)
    ensures |r| >= 1
    ensures forall k :: 0 <= k < |r| ==> c !in r[k]
    decreases |s|
  {
    match Find(s, c)
    case None => [s]
    case Some(i) => [s[..i]] + Split(s[i + 1..], c)
  }

  /** `sep.join(xs)`. */
  function Join(sep: string, xs: seq<string>): string
    decreases |xs|
  {
    if xs == [] then ""
    else if |xs| == 1 then xs[0]
    else xs[0] + sep + Join(sep, xs[1..])
  }

  /** `"".join(xs)` for strings, or a list built by `extend` with each of
      `xs` in turn: the sequences one after another. */
  function Concat<T>(xs: seq<seq<T>>): seq<T>
    decreases |xs|
  {
    if xs == [] then [] else xs[0] + Concat(xs[1..])
  }

  /** Total length of the sequences in `xs`. */
  function SumLen<T>(xs: seq<seq<T>>): nat
    decreases |xs|
  {
    if xs == [] then 0 else |xs[0]| + SumLen(xs[1..])
  }

  /** Number of occurrences of `c` in `s`. */
  function Count(s: string, c: char): nat {
    multiset(s)[c]
  }

  /** Appending one more string at the end of a concatenation: the loop
      `text += x` computes `Concat`. */
  lemma {:induction false} ConcatSnoc<T>(xs: seq<seq<T>>, x: seq<T>)
    ensures Concat(xs + [x]) == Concat(xs) + x
    decreases |xs|
  {
    if xs == [] {
      assert [x][1..] == [];
    } else {
      assert (xs + [x])[1..] == xs[1..] + [x];
      ConcatSnoc(xs[1..], x);
    }
  }

  /** The concatenation is as long as its parts together. */
  lemma {:induction false} ConcatLength<T>(xs: seq<seq<T>>)
    ensures |Concat(xs)| == SumLen(xs)
    decreases |xs|
  {
    if xs != [] {
      ConcatLength(xs[1..]);
    }
  }

  /** Joining `n >= 1` strings adds exactly `n - 1` separators. */
  lemma {:induction false} JoinLength(sep: string, xs: seq<string>)
    requires |xs| >= 1
    ensures |Join(sep, xs)| == SumLen(xs) + |sep| * (|xs| - 1)
    decreases |xs|
  {
    if |xs| > 1 {
      JoinLength(sep, xs[1..]);
    }
  }

  /** Joining a first piece and at least one more with a separator. */
  lemma JoinCons(sep: string, x: string, xs: seq<string>)
    requires xs != []
    ensures Join(sep, [x] + xs) == x + sep + Join(sep, xs)
  {
    assert ([x] + xs)[1..] == xs;
  }

  /** Splitting on `c` and joining with `c` gives back the string. */
  lemma {:induction false} JoinSplit(s: string, c: char)
    ensures Join([c], Split(s, c)) == s
    decreases |s|
  {
    var f := Find(s, c);
    if f.None? {
      assert Split(s, c) == [s];
    } else {
      var i := f.value;
      var rest := s[i + 1..];
      var pieces := Split(rest, c);
      assert Split(s, c) == [s[..i]] + pieces;
      JoinSplit(rest, c);
      JoinCons([c], s[..i], pieces);
      assert [c] == [s[i]];
      Around(s, i);
    }
  }

  /** A string is what comes before position `i`, the character at `i`, and
      what comes after. */
  lemma Around(s: string, i: nat)
    requires i < |s|
    ensures s == s[..i] + [s[i]] + s[i + 1..]
  {
    var t := s[..i] + [s[i]] + s[i + 1..];
    assert |t| == |s|;
    forall k | 0 <= k < |s| ensures t[k] == s[k] {
      if k < i {
        assert t[k] == s[..i][k];
      } else if k > i {
        assert t[k] == s[i + 1..][k - i - 1];
      }
    }
  }

  /** Joining pieces free of `c` with `c` and splitting on `c` gives back
      the pieces, in order. */
  lemma {:induction false} SplitJoin(xs: seq<string>, c: char)
    requires |xs| >= 1
    requires forall k :: 0 <= k < |xs| ==> c !in xs[k]
    ensures Split(Join([c], xs), c) == xs
    decreases |xs|
  {
    if |xs| > 1 {
      var tail := Join([c], xs[1..]);
      var s := Join([c], xs);
      assert xs == [xs[0]] + xs[1..];
      JoinCons([c], xs[0], xs[1..]);
      assert s == xs[0] + [c] + tail;
      FindAfterFree(xs[0], c, tail);
      assert s[..|xs[0]|] == xs[0];
      assert s[|xs[0]| + 1..] == tail;
      assert Split(s, c) == [xs[0]] + Split(tail, c);
      SplitJoin(xs[1..], c);
    } else {
      assert Find(xs[0], c).None?;
    }
  }

  /** In `a + [c] + b` with `c` not in `a`, the first `c` is right after `a`. */
  lemma FindAfterFree(a: string, c: char, b: string)
    requires c !in a
    ensures Find(a + [c] + b, c) == Some(|a|)
  {
    var s := a + [c] + b;
    assert s[|a|] == c;
    assert s[..|a|] == a;
  }

  /** `s.split(c)` has one more piece than `s` has separators. */
  lemma {:induction false} SplitCount(s: string, c: char)
    ensures |Split(s, c)| == Count(s, c) + 1
    decreases |s|
  {
    match Find(s, c)
    case None =>
    case Some(i) =>
      SplitCount(s[i + 1..], c);
      Around(s, i);
      assert multiset(s) == multiset(s[..i]) + multiset([c]) + multiset(s[i + 1..]);
      assert multiset(s[..i])[c] == 0;
  }

  // ---------------------------------------------------------------------
  // Integers and paths
  // ---------------------------------------------------------------------

  /** The decimal digit character for `d`. */
  function DigitChar(d: nat): (r: char)
    requires d < 10
    ensures '0' <= r <= '9'
    ensures r as int - '0' as int == d
  {
    ('0' as int + d) as char
  }

  /** The number a string of decimal digits spells, most significant first. */
  function DigitsValue(s: string): nat
    requires forall k :: 0 <= k < |s| ==> '0' <= s[k] <= '9'
    decreases |s|
  {
    if s == [] then 0
    else 10 * DigitsValue(s[..|s| - 1]) + (s[|s| - 1] as int - '0' as int)
  }

  /** `str(n)` for a natural number: the decimal digits that spell `n`, with
      no leading zero. */
  function NatToString(n: nat): (r: string)
    ensures r != []
    ensures forall k :: 0 <= k < |r| ==> '0' <= r[k] <= '9'
    ensures DigitsValue(r) == n
    ensures r[0] == '0' ==> n == 0
    decreases n
  {
    if n < 10 then [DigitChar(n)]
    else
      var r := NatToString(n / 10) + [DigitChar(n % 10)];
      assert r[..|r| - 1] == NatToString(n / 10);
      r
  }

  /** A path separator in the Windows flavour of `os.path` (`ntpath`). */
  predicate IsSep(c: char) {
    c == '\\' || c == '/'
  }

  /** Index of the last path separator, or -1. */
  function LastSep(p: string): (r: int)
    ensures -1 <= r < |p|
    ensures r >= 0 ==> IsSep(p[r])
    ensures forall k :: r < k < |p| ==> !IsSep(p[k])
  {
    var a, b := RFind(p, '\\'), RFind(p, '/');
    if a < b then b else a
  }

  /** `os.path.splitext(p)[1]`: the extension, from the last dot of the last
      path component to the end, provided that component has a character
      other than a dot before it (leading dots do not start an extension);
      otherwise the empty string. */
  function Ext(p: string): (r: string)
    ensures |r| <= |p| && (r == [] || (r[0] == '.' && r == p[|p| - |r|..]))
    ensures forall k :: 1 <= k < |r| ==> r[k] != '.' && !IsSep(r[k])
  {
    var sepIndex, dotIndex := LastSep(p), RFind(p, '.');
    if dotIndex > sepIndex && exists k :: sepIndex + 1 <= k < dotIndex && p[k] != '.'
    then p[dotIndex..]
    else ""
  }

  /** The extension of `stem + "." + e` is `"." + e` when `e` holds no dot or
      separator and the stem does not end in a dot or separator: so the
      comparison that follows sees exactly the suffix the user typed. */
  lemma ExtOf(stem: string, e: string)
    requires stem != [] && stem[|stem| - 1] != '.' && !IsSep(stem[|stem| - 1])
    requires '.' !in e && forall k :: 0 <= k < |e| ==> !IsSep(e[k])
    ensures Ext(stem + "." + e) == "." + e
  {
    var p := stem + "." + e;
    assert p[|stem|] == '.';
    assert RFind(p, '.') == |stem| by {
      forall k | |stem| < k < |p| ensures p[k] != '.' {
        assert p[k] == e[k - |stem| - 1];
      }
    }
    assert LastSep(p) < |stem| - 1 by {
      forall k | |stem| - 1 <= k < |p| ensures !IsSep(p[k]) {
        if k > |stem| { assert p[k] == e[k - |stem| - 1]; }
      }
    }
    assert p[|stem| - 1] != '.';
    assert p[|stem|..] == "." + e;
  }
}

=== FILE: transcription.dfy ===
/** The transcription endpoint (`/transcribe`): an image is read with
    Tesseract; a PDF is read from its embedded text layer when it has one,
    and otherwise rendered page by page and read with Tesseract. */
module Transcription {
  import opened Wrappers
  import opened PyStr
  import opened Oracles

  /** Prefix of the error reply for any exception raised while reading the file. */
  const OcrErrorPrefix: string := "Ocorreu um erro no OCR: "

  /** `ocr_image` (profile Document) and `ocr_image_without_pre_processing`
      (profile Plain): recognise one image and strip the text. */
  function OcrImage(e: Engines, img: Image, profile: OcrProfile): (r: Outcome<string>)
    ensures r.Ok? <==> e.tesseract(img, profile).Ok?
    ensures r.Ok? ==> r.value == Strip(e.tesseract(img, profile).value)
    ensures r.Ok? ==> IsStripped(r.value)
    ensures r.Fail? ==> r == e.tesseract(img, profile)
  {
    match e.tesseract(img, profile)
    case Ok(t) => Ok(Strip(t))
    case Fail(m) => Fail(m)
  }

  // ---------------------------------------------------------------------
  // Digital PDF text
  // ---------------------------------------------------------------------

  /** What `extract_text_pdf_digital` returns: the page texts concatenated
      in page order, with no separator, then stripped. */
  function DigitalText(e: Engines, content: Bytes): (r: Outcome<string>)
    ensures r.Ok? ==> IsStripped(r.value)
    ensures r.Fail? <==> e.pdfPageTexts(content).Fail?
  {
    match e.pdfPageTexts(content)
    case Fail(m) => Fail(m)
    case Ok(pages) => Ok(Strip(Concat(pages)))
  }

  /** `extract_text_pdf_digital`: `text += page.get_text()` over the pages,
      then `text.strip()`. */
  method ExtractTextPdfDigital(e: Engines, content: Bytes) returns (r: Outcome<string>)
    ensures r == DigitalText(e, content)
  {
    var doc := e.pdfPageTexts(content);
    if doc.Fail? {
      return Fail(doc.message);
    }
    var pages := doc.value;
    var text := "";
    var i := 0;
    while i < |pages|
      invariant 0 <= i <= |pages|
      invariant text == Concat(pages[..i])
    {
      assert pages[..i + 1] == pages[..i] + [pages[i]];
      ConcatSnoc(pages[..i], pages[i]);
      text := text + pages[i];
      i := i + 1;
    }
    assert pages[..i] == pages;
    r := Ok(Strip(text));
  }

  /** The digital text is the concatenated page text less its surrounding
      whitespace, so it keeps every character between the first and the
      last non-blank one. */
  lemma DigitalTextOfPages(e: Engines, content: Bytes, pages: seq<string>)
    requires e.pdfPageTexts(content) == Ok(pages)
    ensures DigitalText(e, content).Ok?
    ensures var t, all := DigitalText(e, content).value, Concat(pages);
      |all| == SumLen(pages) &&
      t == all[LeadingSpace(all)..LeadingSpace(all) + |t|] &&
      IsStripped(t) &&
      (forall k :: LeadingSpace(all) + |t| <= k < |all| ==> IsSpace(all[k])) &&
      (t == "" <==> IsBlank(all))
  {
    ConcatLength(pages);
  }

  // ---------------------------------------------------------------------
  // Scanned PDF text
  // ---------------------------------------------------------------------

  /** The OCR applied to each rendered page of a scanned PDF. */
  function PageOcr(e: Engines): Image -> Outcome<string> {
    (p: Image) => OcrImage(e, p, Document)
  }

  /** What `ocr_pdf_scanned` returns: the OCR text of every page, in page
      order, joined by newlines; the first failure aborts. */
  function ScannedText(e: Engines, content: Bytes): Outcome<string> {
    match e.rasterize(content)
    case Fail(m) => Fail(m)
    case Ok(pages) =>
      match MapOutcome(PageOcr(e), pages)
      case Fail(m) => Fail(m)
      case Ok(texts) => Ok(Join("\n", texts))
  }

  /** `ocr_pdf_scanned`: append each page's OCR text to `texts` in page
      order, then `"\n".join(texts)`. */
  method OcrPdfScanned(e: Engines, content: Bytes) returns (r: Outcome<string>)
    ensures r == ScannedText(e, content)
  {
    var raster := e.rasterize(content);
    if raster.Fail? {
      return Fail(raster.message);
    }
    var pages := raster.value;
    var texts: seq<string> := [];
    var i := 0;
    while i < |pages|
      invariant 0 <= i <= |pages|
      invariant MapOutcome(PageOcr(e), pages[..i]) == Ok(texts)
    {
      var t := OcrImage(e, pages[i], Document);
      MapOutcomeStep(PageOcr(e), pages, i);
      if t.Fail? {
        MapOutcomePrefixFail(PageOcr(e), pages, i + 1);
        return Fail(t.message);
      }
      texts := texts + [t.value];
      i := i + 1;
    }
    assert pages[..i] == pages;
    r := Ok(Join("\n", texts));
  }

  /** A scanned PDF of N pages whose OCR succeeds gives exactly the N page
      texts, in page order, joined by newlines: N - 1 separators and nothing
      else is added. */
  lemma ScannedTextOfPages(e: Engines, content: Bytes, pages: seq<Image>, texts: seq<string>)
    requires e.rasterize(content) == Ok(pages)
    requires |texts| == |pages|
    requires forall i :: 0 <= i < |pages| ==> OcrImage(e, pages[i], Document) == Ok(texts[i])
    ensures ScannedText(e, content) == Ok(Join("\n", texts))
    ensures |pages| >= 1 ==> |Join("\n", texts)| == SumLen(texts) + |pages| - 1
  {
    var m := MapOutcome(PageOcr(e), pages);
    assert forall i :: 0 <= i < |pages| ==> PageOcr(e)(pages[i]) == Ok(texts[i]);
    assert m.Ok?;
    assert m.value == texts;
    if |pages| >= 1 {
      JoinLength("\n", texts);
    }
  }

  // ---------------------------------------------------------------------
  // The endpoint
  // ---------------------------------------------------------------------

  /** The reply for a finished read: the text, or the error for the
      exception that was raised. */
  function Finish(filename: string, o: Outcome<string>): Reply<string> {
    match o
    case Ok(t) => Reply(filename, t)
    case Fail(m) => ErrorReply(OcrErrorPrefix + m)
  }

  /** `transcribe`: dispatch on the extension; for a PDF try the digital text
      first and fall back to OCR of the rendered pages when it is blank;
      every exception becomes an error reply. */
  function Transcribe(e: Engines, filename: string, content: Bytes): (r: Reply<string>)
    ensures !r.Uncaught?
    ensures r.Reply? ==> r.documento == filename && FormatOf(filename) != Unsupported
    ensures r.ErrorReply? ==> r.error == UnsupportedMessage || OcrErrorPrefix <= r.error
  {
    match FormatOf(filename)
    case Raster =>
      (match e.openImage(content)
       case Fail(m) => ErrorReply(OcrErrorPrefix + m)
       case Ok(img) => Finish(filename, OcrImage(e, img, Document)))
    case Pdf =>
      (match DigitalText(e, content)
       case Fail(m) => ErrorReply(OcrErrorPrefix + m)
       case Ok(text) =>
         if Strip(text) != "" then Reply(filename, text)
         else Finish(filename, ScannedText(e, content)))
    case Unsupported => ErrorReply(UnsupportedMessage)
  }

  /** An unsupported extension is refused whatever the engines would do:
      no reader, renderer or OCR is consulted. */
  lemma UnsupportedConsultsNothing(e: Engines, e': Engines, filename: string, content: Bytes)
    requires FormatOf(filename) == Unsupported
    ensures Transcribe(e, filename, content) == ErrorReply(UnsupportedMessage)
    ensures Transcribe(e', filename, content) == Transcribe(e, filename, content)
  {
  }

  /** An image is read by OCR of the opened image alone: the PDF reader and
      the renderer are not consulted. The reply is Tesseract's text stripped;
      an exception from `Image.open` or from Tesseract becomes the OCR error
      reply, never a text. */
  lemma ImagePath(e: Engines, filename: string, content: Bytes,
                  pdf: Bytes -> Outcome<seq<string>>, raster: Bytes -> Outcome<seq<Image>>)
    requires FormatOf(filename) == Raster
    ensures Transcribe(e.(pdfPageTexts := pdf, rasterize := raster), filename, content) ==
            Transcribe(e, filename, content)
    ensures e.openImage(content).Ok? && e.tesseract(e.openImage(content).value, Document).Ok? ==>
            Transcribe(e, filename, content) ==
            Reply(filename, Strip(e.tesseract(e.openImage(content).value, Document).value))
    ensures e.openImage(content).Fail? ==>
            Transcribe(e, filename, content) == ErrorReply(OcrErrorPrefix + e.openImage(content).message)
    ensures e.openImage(content).Ok? && e.tesseract(e.openImage(content).value, Document).Fail? ==>
            Transcribe(e, filename, content) ==
            ErrorReply(OcrErrorPrefix + e.tesseract(e.openImage(content).value, Document).message)
  {
  }

  /** Digital first: when the embedded text is not blank it is the reply,
      exactly, and neither the renderer nor the OCR engine is consulted. */
  lemma DigitalFirst(e: Engines, filename: string, content: Bytes,
                     raster: Bytes -> Outcome<seq<Image>>, ocr: (Image, OcrProfile) -> Outcome<string>)
    requires FormatOf(filename) == Pdf
    requires DigitalText(e, content).Ok? && !IsBlank(DigitalText(e, content).value)
    ensures Transcribe(e, filename, content) == Reply(filename, DigitalText(e, content).value)
    ensures Transcribe(e.(rasterize := raster, tesseract := ocr), filename, content) ==
            Transcribe(e, filename, content)
  {
  }

  /** Fallback: when the embedded text is blank (it is then empty, being
      stripped already) the reply is the OCR of the rendered pages, or its
      error. */
  lemma ScannedFallback(e: Engines, filename: string, content: Bytes)
    requires FormatOf(filename) == Pdf
    requires DigitalText(e, content).Ok? && IsBlank(DigitalText(e, content).value)
    ensures DigitalText(e, content).value == ""
    ensures Transcribe(e, filename, content) == Finish(filename, ScannedText(e, content))
  {
    var t := DigitalText(e, content).value;
    StripOfStripped(t);
  }

  /** An exception from the PDF reader ends the request with an error reply,
      even when OCR would have succeeded. */
  lemma ReaderFailureIsError(e: Engines, filename: string, content: Bytes)
    requires FormatOf(filename) == Pdf
    requires e.pdfPageTexts(content).Fail?
    ensures Transcribe(e, filename, content) ==
            ErrorReply(OcrErrorPrefix + e.pdfPageTexts(content).message)
  {
  }

  /** A digital PDF whose pages read `"Hello "` and `"World\n"` is
      transcribed as `"Hello World"` whatever the OCR engine would say. */
  lemma HelloWorld(e: Engines, filename: string, content: Bytes)
    requires FormatOf(filename) == Pdf
    requires e.pdfPageTexts(content) == Ok(["Hello ", "World\n"])
    ensures Transcribe(e, filename, content) == Reply(filename, "Hello World")
  {
    HelloWorldText();
    StripOfStripped("Hello World");
  }

  /** The two pages concatenate to `"Hello World\n"`, which strips to `"Hello World"`. */
  lemma HelloWorldText()
    ensures Strip(Concat(["Hello ", "World\n"])) == "Hello World"
  {
    assert Concat(["Hello ", "World\n"]) == "Hello World\n" by {
      assert ["Hello ", "World\n"][1..] == ["World\n"];
      assert ["World\n"][1..] == [];
    }
    var s := "Hello World\n";
    assert !IsSpace(s[0]);
    assert LeadingSpace(s) == 0;
    assert s[0..] == s;
    assert IsSpace(s[|s| - 1]);
    assert s[..|s| - 1] == "Hello World";
    assert !IsSpace("Hello World"[10]);
    assert TrailingSpace("Hello World") == 0;
    assert TrailingSpace(s) == 1;
  }
}

=== FILE: wrappers.dfy ===
/** Optional values and the outcome of a call that may raise. */
module Wrappers {

  /** Python's `None` or a present value. */
  datatype Option<+T> = None | Some(value: T)

  /** The result of a call into code that may raise an exception:
      either its value or the exception's message (`str(e)`). */
  datatype Outcome<+T> = Ok(value: T) | Fail(message: string)
}
